=== FILE: README.md ===
# Data-quality monitoring post-processor, modelled in Dafny

This project models the post-processing step that runs after a data-quality
monitoring job in an ML pipeline. The step does four things:

- It reads the job's constraint-violations document, `{"violations": [{feature_name, constraint_check_type, description}]}`.
- The `deequ` interpreter turns each violation into a normalised metric record `{metric_name, metric_value, metric_threshold, feature, pipeline_name}`.
- It publishes one metric-data request per metric.
- When `--update-rules` is `True`, it first declares two event rules and six threshold alarms for the pipeline. The event rules route pipeline-execution status changes to notification topics, each with its target.

Everything that talks to AWS is replaced by request records. The entry point is a function from the parsed arguments, the state of the violations file, a number parser and an optional failing backend call to a trace of effects plus the way the run ends.

Modules:

- `Wrappers` (`wrappers.dfy`): `Option`, `Result`.
- `DriftPattern` (`drift_pattern.dfy`): the unanchored search for `distance: (.+) exceeds threshold: (.+)`.
  - `IsMatch(desc, pre, g1, g2, post)` states what a match is: `desc == pre + "distance: " + g1 + " exceeds threshold: " + g2 + post`, with both groups non-empty and free of line feeds.
  - `Search` computes the match a backtracking engine reports: leftmost start, greedy groups, `.` excluding the line feed.
  - The lemmas prove that `Search` finds something exactly when a match exists, that what it returns is a match, and that the match is the leftmost one with the longest first group.
- `Deequ` (`deequ.dfy`): the interpreter.
  - A violation entry is a `map<string, string>`, so a missing key raises `KeyError` exactly where the script reads it.
  - `float(...)` is a parameter `parse: string -> Option<real>`. A group that does not convert raises `ValueError` instead of dropping the record.
- `CloudWatch` (`cloudwatch.dfy`): metric-data requests, alarm declarations and the alarm finding below.
- `EventBridge` (`eventbridge.dfy`): the two rules and their targets. A rule's event pattern is the pair of values the script substitutes into its pattern text, the pipeline ARN and the JSON array of states. `PatternText` gives the exact text sent.
- `Upserts` (`upserts.dfy`): a name-keyed store in which declaring a name again replaces it. It is used only to state what re-running the synchronisation does.
- `Driver` (`driver.dfy`): the `__main__` block as an effect trace.
  - The effects are `RuleCall`, `AlarmDeclared`, `FileChecked` and `Published`.
  - A run ends as `NoViolationsFile`, `Completed` or `Crashed(...)`.
  - `ExitCode` gives 0, 0 and 1 for these endings.

Three behaviours of the script are easy to miss:

- A drift description that matches the pattern but whose groups are not numbers raises. This stops the whole run before any publication, because the generator is drained by `list(...)` first. The record is not skipped.
- Group 2 runs to the end of its line, so the rest of that line goes to `float()` together with the threshold. A non-numeric tail makes it raise; trailing whitespace does not, because `float()` ignores it.
- An unmatched drift entry is dropped before `feature_name` is read. A missing `feature_name` does not raise for such an entry.

## Model

| member | source | states |
|---|---|---|
| DriftPattern.SearchNoneIffNoMatch | source_scripts/monitoring/postprocess_monitor_script.py:284-285 | the search finds nothing exactly when no split `pre + "distance: " + g1 + " exceeds threshold: " + g2 + post` exists with non-empty, single-line groups |
| DriftPattern.Search | source_scripts/monitoring/postprocess_monitor_script.py:284 | a reported pair of groups comes from some split of the description around the two literals, with non-empty single-line groups |
| DriftPattern.SearchSound | source_scripts/monitoring/postprocess_monitor_script.py:284 | the groups the search reports come from a real match of the pattern, and group 2 reaches the end of its line |
| DriftPattern.SearchLeftmostLongest | source_scripts/monitoring/postprocess_monitor_script.py:284 | of all matches, the search reports one that starts leftmost and, among those, has the longest group 1 (the regular-expression engine's choice), with group 2 running to the end of its line |
| DriftPattern.SearchExample | source_scripts/monitoring/postprocess_monitor_script.py:284-290 | `distance: 0.42 exceeds threshold: 0.30` yields groups `0.42` and `0.30`; `drift happened` does not match |
| DriftPattern.LineEnd | source_scripts/monitoring/postprocess_monitor_script.py:284 | how far a greedy `.+` can reach: the first line feed at or after the start, or the end of the text, with no line feed before it |
| DriftPattern.SearchFrom | source_scripts/monitoring/postprocess_monitor_script.py:284 | scanning start positions left to right: a reported hit matches at its start, and no earlier start position matches |
| Deequ.InterpretEntry | source_scripts/monitoring/postprocess_monitor_script.py:281-302 | a missing check type raises; a non-drift entry yields one metric named after its check type with value and threshold 1, its feature and the pipeline name verbatim; only drift entries are dropped; no metric is named `baseline_drift_check` |
| Deequ.DriftEntry | source_scripts/monitoring/postprocess_monitor_script.py:282-293 | a drift entry yields no metric and no error exactly when its description does not match; a match without `feature_name` raises `KeyError` for it; otherwise one `feature_baseline_drift` metric with the two converted groups as value and threshold, or a `ValueError` for the first group that does not convert |
| Deequ.UnmatchedDriftDropped | source_scripts/monitoring/postprocess_monitor_script.py:282-285 | an unmatched drift entry is dropped without error even when `feature_name` is missing |
| Deequ.InterpretAll | source_scripts/monitoring/postprocess_monitor_script.py:281-302 | at most one metric per entry, exactly one per entry when none is a drift check; every metric carries the pipeline name and none is named `baseline_drift_check` |
| Deequ.Interpret | source_scripts/monitoring/postprocess_monitor_script.py:280 | a document without a `violations` key yields zero metrics |
| Deequ.InterpretAllAppend | source_scripts/monitoring/postprocess_monitor_script.py:281 | interpreting concatenated entry lists is concatenating their metrics: metrics keep the relative order of their violations, and the earlier error wins |
| Deequ.InterpretAllFailsIff | source_scripts/monitoring/postprocess_monitor_script.py:281-302 | interpretation raises exactly when some entry raises |
| Deequ.InterpretAllFirstError | source_scripts/monitoring/postprocess_monitor_script.py:281-302 | the error raised is that of the first entry that raises |
| Deequ.RecognisedMetricNames | source_scripts/monitoring/postprocess_monitor_script.py:241-253 | for entries using the six documented check types, every metric is named `feature_baseline_drift` or after one of the five other check types |
| Deequ.CompletenessScenario | source_scripts/monitoring/postprocess_monitor_script.py:294-302 | one completeness violation on `length` in pipeline `demo` gives exactly the metric `completeness_check`, 1, 1, `length`, `demo` |
| Deequ.DriftScenario | source_scripts/monitoring/postprocess_monitor_script.py:282-293 | a drift violation `distance: 0.42 exceeds threshold: 0.30` gives exactly one `feature_baseline_drift` metric with value 0.42 and threshold 0.30 |
| CloudWatch.PutCloudwatchMetric | source_scripts/monitoring/postprocess_monitor_script.py:304-322 | one request per metric in input order, each in the given namespace with a single datum: the metric's name and value, the one dimension `PipelineName`, unit `None`, and its own clock reading |
| CloudWatch.PublishIgnoresThresholdAndFeature | source_scripts/monitoring/postprocess_monitor_script.py:307-315 | metrics that agree on name, value and pipeline publish identical requests: threshold and feature never reach the backend |
| CloudWatch.AlarmNameInjective | source_scripts/monitoring/postprocess_monitor_script.py:218 | within one pipeline, alarm names `<pipeline>-<metric>` determine the metric |
| CloudWatch.UpdateAlarm | source_scripts/monitoring/postprocess_monitor_script.py:211-235 | the alarm is `GreaterThanThreshold` 0.0 over one 60-second period of the `Sum`, enabled, notifies the given topic only, carries the one `PipelineName` dimension, watches the given metric, is named `<pipeline>-<metric>` and is described as `Alarm when threshold is greater than 0` |
| CloudWatch.AlarmsForShape | source_scripts/monitoring/postprocess_monitor_script.py:211-235 | each declared alarm is `GreaterThanThreshold` 0.0 over one 60-second period of the `Sum`, notifies the given topic, carries the `PipelineName` dimension and is named `<pipeline>-<metric>`; distinct metrics give distinct names |
| CloudWatch.UpdateAlarmsAsWritten | source_scripts/monitoring/postprocess_monitor_script.py:118-124 | six alarms with the fixed configuration, one per check type in order, with pairwise distinct names |
| CloudWatch.UpdateAlarms | source_scripts/monitoring/postprocess_monitor_script.py:118-124 | six alarms with the fixed configuration and pairwise distinct names, the third watching `feature_baseline_drift` (corrected, see Findings) |
| CloudWatch.AlarmListsAgree | source_scripts/monitoring/postprocess_monitor_script.py:118-124 | the corrected list equals the script's own except the third alarm, which watches `feature_baseline_drift` instead of `baseline_drift_check` |
| CloudWatch.DriftNeverAlarmedAsWritten | source_scripts/monitoring/postprocess_monitor_script.py:118-124 | as written, no alarm watches `feature_baseline_drift`, and the `baseline_drift_check` alarm watches a name the interpreter never emits |
| CloudWatch.DriftScenarioUnalarmedAsWritten | source_scripts/monitoring/postprocess_monitor_script.py:118-124 | as written, the drift violation `distance: 0.42 exceeds threshold: 0.30` is published as one metric that none of the six alarms watches |
| CloudWatch.EveryMetricAlarmed | source_scripts/monitoring/postprocess_monitor_script.py:118-124 | with the corrected alarms, every metric interpreted from the six check types is watched by an alarm of the same namespace and pipeline |
| CloudWatch.AlarmSyncIdempotent | source_scripts/monitoring/postprocess_monitor_script.py:211-235 | for any list of distinct watched metrics, declaring their alarms twice leaves the store as declaring them once, and one declaration adds exactly one alarm name `<pipeline>-<metric>` per metric |
| CloudWatch.ScriptAlarmSyncIdempotent | source_scripts/monitoring/postprocess_monitor_script.py:118-124 | re-running `update_alarms` as written changes no alarm; one run adds the six names `<pipeline>-<check type>` |
| EventBridge.UpdateEventbridgeRules | source_scripts/monitoring/postprocess_monitor_script.py:126-159 | rule `<name>-failed` on `["Failed"]` then its target to the notification topic, rule `<name>-multi-state` on `["Executing", "Failed"]` then its target to the custom topic; both patterns embed the pipeline ARN; each target is exactly the notification target of `eventbridge_add_notification_targets` with id `target-1`, so both carry its transformer |
| EventBridge.PipelineRulePattern | source_scripts/monitoring/postprocess_monitor_script.py:188-208 | the pattern text of a rule from `add_pipeline_rule` starts with the fixed head and holds the pipeline ARN and the status list verbatim at fixed offsets |
| EventBridge.PatternTextInjective | source_scripts/monitoring/postprocess_monitor_script.py:188-208 | patterns with the same status list have the same text only for the same pipeline ARN |
| EventBridge.NotificationTargets | source_scripts/monitoring/postprocess_monitor_script.py:161-185 | one target on the named rule, with the given id, delivering to the given topic, whose transformer binds `pipeline` to `$.detail.pipelineArn`, `pipelineExecution` to `$.detail.pipelineExecutionArn` and `state` to `$.detail.currentPipelineExecutionStatus`, in that order |
| EventBridge.NotificationPlaceholdersUsed | source_scripts/monitoring/postprocess_monitor_script.py:174-180 | every key the transformer binds occurs as a `<key>` placeholder in the message template, so each bound event field reaches the notification |
| EventBridge.NotificationFieldsKeyed | source_scripts/monitoring/postprocess_monitor_script.py:174-180 | the transformer sends the notification message template, in which each bound placeholder is written, bare or quoted, as the value of the member named after its own key |
| EventBridge.RuleSyncIdempotent | source_scripts/monitoring/postprocess_monitor_script.py:126-159 | one synchronisation declares exactly the two distinct rule names, each with a target; a second one changes neither store |
| Driver.SyncCalls | source_scripts/monitoring/postprocess_monitor_script.py:334-342 | no declarations unless `--update-rules` is `True`; then ten, the four rule calls before the six alarms |
| Driver.SyncDeclarations | source_scripts/monitoring/postprocess_monitor_script.py:334-342 | with `--update-rules True`, the first four declarations are the rule calls of `update_eventbridge_rules` given the notification topic, the pipeline name, the custom topic and the pipeline ARN in that order, and the last six are the alarms of the chosen list in order; every declared alarm has the fixed configuration for the pipeline; the drift alarm watches `baseline_drift_check` with the script's list and `feature_baseline_drift` with the corrected one |
| Driver.Main | source_scripts/monitoring/postprocess_monitor_script.py:324-347 | a run that finds no violations file published nothing; a completed run found the file, interpreted it without error and published exactly `put_cloudwatch_metric` of its metrics |
| Driver.SyncGated | source_scripts/monitoring/postprocess_monitor_script.py:334-342 | a run declares rules or alarms only when `--update-rules` is `True`; then, unless a declaration raises, it starts with four rule calls, six alarm declarations and then the file check |
| Driver.SyncBeforeRead | source_scripts/monitoring/postprocess_monitor_script.py:334-344 | every declaration comes before the violations file is looked for, and the file is looked for at most once |
| Driver.AbsentFileExitsZero | source_scripts/monitoring/postprocess_monitor_script.py:98-106 | without a violations file, the run ends after the file check with status 0 and no publication |
| Driver.NoViolationsKeyPublishesNothing | source_scripts/monitoring/postprocess_monitor_script.py:344-347 | a document without `violations` completes with status 0 and no publication |
| Driver.PublishesInterpretedMetrics | source_scripts/monitoring/postprocess_monitor_script.py:344-347 | when nothing raises, the published requests are exactly `put_cloudwatch_metric` of the interpreted metrics, and the exit status is 0 |
| Driver.BadViolationPublishesNothing | source_scripts/monitoring/postprocess_monitor_script.py:346-347 | an entry that raises stops the run before any publication, with exit status 1 |
| Driver.BackendFailureTruncates | source_scripts/monitoring/postprocess_monitor_script.py:334-347 | a backend call that raises leaves a prefix of the calls of the undisturbed run, ending with that call, and exit status 1; the run crashes with a rejected call exactly when the raising index is below the number of backend calls (rule, target, alarm and metric calls) of the undisturbed run, and the call it reports is the one at that index |
| Driver.CorrectionKeepsRun | source_scripts/monitoring/postprocess_monitor_script.py:334-347 | the run with the corrected alarm list performs as many effects as the script's, the same ones except the seventh, publishes the same requests and exits with the same status |
| Driver.CorrectionDriftAlarm | source_scripts/monitoring/postprocess_monitor_script.py:342 | that seventh effect declares the drift alarm on `baseline_drift_check` in the script's run and on `feature_baseline_drift` in the corrected one |

## Findings

| source | as written | input that shows it | evidently intended | confidence | as-written member | corrected member |
|---|---|---|---|---|---|---|
| source_scripts/monitoring/postprocess_monitor_script.py:121 | the drift alarm watches metric `baseline_drift_check` | a `baseline_drift_check` violation `distance: 0.42 exceeds threshold: 0.30` is published as `feature_baseline_drift` (line 288), which no alarm watches, so it never notifies | the drift alarm watches `feature_baseline_drift`, the name drift metrics are published under | medium, not executed | CloudWatch.DriftScenarioUnalarmedAsWritten | CloudWatch.EveryMetricAlarmed |

`Driver.Main` declares the alarms exactly as the script builds them (`CloudWatch.UpdateAlarmsAsWritten`).
`Driver.MainCorrected` is the same run with the corrected list (`CloudWatch.UpdateAlarms`).
`Driver.CorrectionKeepsRun` and `Driver.CorrectionDriftAlarm` show that the two runs differ only in the metric the drift alarm watches.

## Left out

- AWS client and session creation, the region lookup (lines 107-116) and the network calls. Requests are records; a call that raises is chosen by the `failAt` parameter.
- Logging, `print_args` and `set_logging_level`: they have no effect on the requests.
- Argument parsing. The arguments are the record `Driver.Args`. Values of `--update-rules` other than `True` behave as `False`; the parser would reject them. `--framework` admits only `deequ`, so the `locals()` dispatch is the one-case `Driver.Format`.
- The clock: each metric request carries `ClockReading(i)`, the reading taken for the i-th publication, instead of a UTC time.
- Float parsing and formatting: the conversion is the parameter `parse`, and metric values are reals.
- JSON decoding: the file is `Absent`, `Malformed` (decoding raises) or `Present(report)`. Entry values other than strings, a top-level value that is not an object, and a `violations` value that is not a list are not modelled.
- The default namespace of `put_cloudwatch_metric`: the entry point always passes `--metrics-namespace`.
- The backends' own upsert semantics: `Upserts.Declare` states them only so that re-running the synchronisation can be described. The target store is keyed by rule name, because each rule gets a single target id.
- The pipeline definitions, the preprocessing, postprocessing and inference scripts, the environment helpers and the training-monitor workaround are not part of this model.

=== FILE: cloudwatch.dfy ===
/**
 * The requests sent to the metrics backend: one metric-data request per normalised
 * metric, and the declarations of the threshold alarms that watch those metrics.
 * Requests are records; sending them is the driver's business.
 */
module CloudWatch {
  import Deequ
  import opened Wrappers
  import Upserts

  datatype Dimension = Dimension(name: string, value: string)

  /** A reading of the UTC clock: the reading taken for the `call`-th metric request of
      a run. The clock itself is not modelled. */
  datatype Timestamp = ClockReading(call: nat)

  datatype MetricDatum = MetricDatum(metricName: string, dimensions: seq<Dimension>, timestamp: Timestamp,
                                     value: real, unit: string)

  datatype PutMetricDataRequest = PutMetricDataRequest(namespace: string, metricData: seq<MetricDatum>)

  datatype AlarmRequest = AlarmRequest(
    alarmName: string,
    comparisonOperator: string,
    evaluationPeriods: nat,
    metricName: string,
    namespace: string,
    period: nat,
    statistic: string,
    threshold: real,
    actionsEnabled: bool,
    alarmActions: seq<string>,
    alarmDescription: string,
    dimensions: seq<Dimension>)

  const PipelineNameDimension: string := "PipelineName"
  const NoUnit: string := "None"

  /** The one dimension every metric and alarm of a pipeline carries. */
  function PipelineDimensions(pipelineName: string): seq<Dimension> {
    [Dimension(PipelineNameDimension, pipelineName)]
  }

  // ---------------------------------------------------------------------------
  // Publishing metrics.
  // ---------------------------------------------------------------------------

  /** The request that publishes one metric. */
  function MetricRequest(namespace: string, m: Deequ.Metric, at: Timestamp): PutMetricDataRequest {
    PutMetricDataRequest(namespace, [MetricDatum(m.name, PipelineDimensions(m.pipelineName), at, m.value, NoUnit)])
  }

  /** `put_cloudwatch_metric`: one request per metric, in the order of the metrics, each
      stamped with its own clock reading. */
  function PutCloudwatchMetric(metrics: seq<Deequ.Metric>, namespace: string): (r: seq<PutMetricDataRequest>)
    ensures |r| == |metrics|
    ensures forall i :: 0 <= i < |r| ==>
      && r[i].namespace == namespace
      && |r[i].metricData| == 1
      && r[i].metricData[0].metricName == metrics[i].name
      && r[i].metricData[0].value == metrics[i].value
      && r[i].metricData[0].dimensions == [Dimension("PipelineName", metrics[i].pipelineName)]
      && r[i].metricData[0].unit == "None"
      && r[i].metricData[0].timestamp == ClockReading(i)
  {
    seq(|metrics|, i requires 0 <= i < |metrics| => MetricRequest(namespace, metrics[i], ClockReading(i)))
  }

  /** Two metric lists that agree on name, value and pipeline publish the same requests:
      threshold and feature never reach the backend. */
  lemma PublishIgnoresThresholdAndFeature(ms: seq<Deequ.Metric>, ms': seq<Deequ.Metric>, namespace: string)
    requires |ms| == |ms'|
    requires forall i :: 0 <= i < |ms| ==>
      ms[i].name == ms'[i].name && ms[i].value == ms'[i].value && ms[i].pipelineName == ms'[i].pipelineName
    ensures PutCloudwatchMetric(ms, namespace) == PutCloudwatchMetric(ms', namespace)
  {
    var r, r' := PutCloudwatchMetric(ms, namespace), PutCloudwatchMetric(ms', namespace);
    forall i | 0 <= i < |r| ensures r[i] == r'[i] {
      assert r[i].metricData[0] == r'[i].metricData[0];
    }
  }

  // ---------------------------------------------------------------------------
  // Alarms.
  // ---------------------------------------------------------------------------

  /** `update_alarm`: the declaration of the alarm that watches one metric of one
      pipeline. */
  function UpdateAlarm(namespace: string, pipelineName: string, metricName: string, snsArn: string): (r: AlarmRequest)
    ensures StandardAlarm(r, namespace, pipelineName, snsArn)
    ensures r.metricName == metricName && r.alarmName == pipelineName + "-" + metricName
    ensures r.alarmDescription == "Alarm when threshold is greater than 0"
  {
    AlarmRequest(
      alarmName := pipelineName + "-" + metricName,
      comparisonOperator := "GreaterThanThreshold",
      evaluationPeriods := 1,
      metricName := metricName,
      namespace := namespace,
      period := 60,
      statistic := "Sum",
      threshold := 0.0,
      actionsEnabled := true,
      alarmActions := [snsArn],
      alarmDescription := "Alarm when threshold is greater than 0",
      dimensions := PipelineDimensions(pipelineName))
  }

  /** An alarm with the fixed configuration: it fires when the per-minute sum of the
      watched metric of the pipeline exceeds zero, and notifies `snsArn`. */
  predicate StandardAlarm(a: AlarmRequest, namespace: string, pipelineName: string, snsArn: string) {
    && a.comparisonOperator == "GreaterThanThreshold"
    && a.threshold == 0.0
    && a.period == 60
    && a.evaluationPeriods == 1
    && a.statistic == "Sum"
    && a.actionsEnabled
    && a.alarmActions == [snsArn]
    && a.namespace == namespace
    && a.dimensions == [Dimension("PipelineName", pipelineName)]
  }

  /** One alarm per watched metric name, in order. */
  function AlarmsFor(namespace: string, pipelineName: string, snsArn: string, watched: seq<string>): seq<AlarmRequest> {
    seq(|watched|, i requires 0 <= i < |watched| => UpdateAlarm(namespace, pipelineName, watched[i], snsArn))
  }

  /** Distinct metric names give distinct alarm names within one pipeline. */
  lemma AlarmNameInjective(pipelineName: string, a: string, b: string)
    requires pipelineName + "-" + a == pipelineName + "-" + b
    ensures a == b
  {
    var n := |pipelineName| + 1;
    assert a == (pipelineName + "-" + a)[n..];
    assert b == (pipelineName + "-" + b)[n..];
  }

  /** The alarms for a list of distinct metric names: one per name, in order, each with
      the fixed configuration, named `<pipeline>-<metric>`, with pairwise distinct names. */
  lemma AlarmsForShape(namespace: string, pipelineName: string, snsArn: string, watched: seq<string>)
    requires forall i, j :: 0 <= i < j < |watched| ==> watched[i] != watched[j]
    ensures var r := AlarmsFor(namespace, pipelineName, snsArn, watched);
      && |r| == |watched|
      && (forall i :: 0 <= i < |r| ==>
            && StandardAlarm(r[i], namespace, pipelineName, snsArn)
            && r[i].metricName == watched[i]
            && r[i].alarmName == pipelineName + "-" + watched[i])
      && (forall i, j :: 0 <= i < j < |r| ==> r[i].alarmName != r[j].alarmName)
  {
    var r := AlarmsFor(namespace, pipelineName, snsArn, watched);
    forall i, j | 0 <= i < j < |r| ensures r[i].alarmName != r[j].alarmName {
      if r[i].alarmName == r[j].alarmName {
        AlarmNameInjective(pipelineName, watched[i], watched[j]);
      }
    }
  }

  /** `update_alarms` as written: one alarm per check type, including one on the metric
      `baseline_drift_check`. */
  function UpdateAlarmsAsWritten(namespace: string, pipelineName: string, snsArn: string): (r: seq<AlarmRequest>)
    ensures |r| == 6
    ensures forall i :: 0 <= i < 6 ==>
      && StandardAlarm(r[i], namespace, pipelineName, snsArn)
      && r[i].metricName == Deequ.CheckTypes[i]
      && r[i].alarmName == pipelineName + "-" + Deequ.CheckTypes[i]
    ensures forall i, j :: 0 <= i < j < 6 ==> r[i].alarmName != r[j].alarmName
  {
    AlarmsForShape(namespace, pipelineName, snsArn, Deequ.CheckTypes);
    AlarmsFor(namespace, pipelineName, snsArn, Deequ.CheckTypes)
  }

  /** The metric names the alarms should watch: the names the interpreter actually
      emits for the six check types. */
  const AlarmedMetrics: seq<string> := ["data_type_check", "completeness_check", Deequ.DriftMetric,
                                        "missing_column_check", "extra_column_check", "categorical_values_check"]

  /** `update_alarms` with the drift alarm watching `feature_baseline_drift`, the metric a
      drift violation is published under. */
  function UpdateAlarms(namespace: string, pipelineName: string, snsArn: string): (r: seq<AlarmRequest>)
    ensures |r| == 6
    ensures forall i :: 0 <= i < 6 ==>
      && StandardAlarm(r[i], namespace, pipelineName, snsArn)
      && r[i].metricName == AlarmedMetrics[i]
      && r[i].alarmName == pipelineName + "-" + AlarmedMetrics[i]
    ensures forall i, j :: 0 <= i < j < 6 ==> r[i].alarmName != r[j].alarmName
  {
    AlarmsForShape(namespace, pipelineName, snsArn, AlarmedMetrics);
    AlarmsFor(namespace, pipelineName, snsArn, AlarmedMetrics)
  }

  /** The corrected list differs from the script's own only in its third alarm, the
      drift alarm. */
  lemma AlarmListsAgree(namespace: string, pipelineName: string, snsArn: string)
    ensures var a, c := UpdateAlarmsAsWritten(namespace, pipelineName, snsArn), UpdateAlarms(namespace, pipelineName, snsArn);
      && |a| == |c| == 6
      && (forall i :: 0 <= i < 6 && i != 2 ==> a[i] == c[i])
      && a[2].metricName == Deequ.DriftCheck && c[2].metricName == Deequ.DriftMetric
  {
    var a, c := UpdateAlarmsAsWritten(namespace, pipelineName, snsArn), UpdateAlarms(namespace, pipelineName, snsArn);
    forall i | 0 <= i < 6 && i != 2 ensures a[i] == c[i] {
      assert Deequ.CheckTypes[i] == AlarmedMetrics[i];
      assert a[i] == UpdateAlarm(namespace, pipelineName, Deequ.CheckTypes[i], snsArn);
    }
  }

  /** As written, no alarm watches the metric a drift violation is published under,
      and the alarm on `baseline_drift_check` watches a name the interpreter never
      emits; yet a drift violation is published (the drift scenario). */
  lemma DriftNeverAlarmedAsWritten(namespace: string, report: Deequ.Report, pipelineName: string,
                                   parse: Deequ.FloatParser, snsArn: string)
    ensures forall a :: a in UpdateAlarmsAsWritten(namespace, pipelineName, snsArn) ==> a.metricName != Deequ.DriftMetric
    ensures UpdateAlarmsAsWritten(namespace, pipelineName, snsArn)[2].metricName == Deequ.DriftCheck
    ensures Deequ.Interpret(report, pipelineName, parse).Success? ==>
      forall m :: m in Deequ.Interpret(report, pipelineName, parse).value ==> m.name != Deequ.DriftCheck
  {
    var r := UpdateAlarmsAsWritten(namespace, pipelineName, snsArn);
    forall a | a in r ensures a.metricName != Deequ.DriftMetric {
      var i :| 0 <= i < |r| && r[i] == a;
      assert a.metricName == Deequ.CheckTypes[i];
    }
  }

  /** The drift scenario as written: the violation `distance: 0.42 exceeds threshold: 0.30`
      is published as a metric that none of the six declared alarms watches. */
  lemma DriftScenarioUnalarmedAsWritten(namespace: string, pipelineName: string, snsArn: string,
                                        parse: Deequ.FloatParser)
    requires parse("0.42") == Some(0.42) && parse("0.30") == Some(0.30)
    ensures var report := Deequ.Report(Some([map[Deequ.FeatureNameKey := "f", Deequ.CheckTypeKey := Deequ.DriftCheck,
                                                 Deequ.DescriptionKey := "distance: 0.42 exceeds threshold: 0.30"]]));
      var r := Deequ.Interpret(report, "demo", parse);
      && r.Success? && |r.value| == 1
      && forall a :: a in UpdateAlarmsAsWritten(namespace, pipelineName, snsArn) ==> a.metricName != r.value[0].name
  {
    Deequ.DriftScenario(parse);
    DriftNeverAlarmedAsWritten(namespace, Deequ.Report(None), pipelineName, parse, snsArn);
  }

  /** With the corrected alarms, every metric the interpreter emits for a document that
      only uses the six check types is watched by an alarm of the same namespace and
      pipeline. */
  lemma EveryMetricAlarmed(namespace: string, report: Deequ.Report, pipelineName: string,
                           parse: Deequ.FloatParser, snsArn: string)
    requires report.violations.Some? ==> Deequ.RecognisedEntries(report.violations.value)
    requires Deequ.Interpret(report, pipelineName, parse).Success?
    ensures forall m :: m in Deequ.Interpret(report, pipelineName, parse).value ==>
      exists a :: a in UpdateAlarms(namespace, pipelineName, snsArn)
        && a.metricName == m.name && a.namespace == namespace && a.dimensions == PipelineDimensions(m.pipelineName)
  {
    var ms := Deequ.Interpret(report, pipelineName, parse).value;
    var r := UpdateAlarms(namespace, pipelineName, snsArn);
    if report.violations.Some? {
      Deequ.RecognisedMetricNames(report.violations.value, pipelineName, parse);
    }
    forall m | m in ms
      ensures exists a :: a in r && a.metricName == m.name && a.namespace == namespace
                          && a.dimensions == PipelineDimensions(m.pipelineName)
    {
      var k :| 0 <= k < |ms| && ms[k] == m;
      assert m.pipelineName == pipelineName;
      WatchedName(m.name);
      var i :| 0 <= i < 6 && AlarmedMetrics[i] == m.name;
      assert r[i] in r;
    }
  }

  /** The names the interpreter emits for the six check types are exactly the watched ones. */
  lemma WatchedName(n: string)
    requires n == Deequ.DriftMetric || (n in Deequ.CheckTypes && n != Deequ.DriftCheck)
    ensures exists i :: 0 <= i < 6 && AlarmedMetrics[i] == n
  {
    if n == Deequ.DriftMetric {
      assert AlarmedMetrics[2] == n;
    } else {
      var j :| 0 <= j < 6 && Deequ.CheckTypes[j] == n;
      assert AlarmedMetrics[j] == n;
    }
  }

  /** The names of the alarms of a pipeline on the given metrics. */
  function AlarmNames(pipelineName: string, watched: seq<string>): set<string> {
    set i | 0 <= i < |watched| :: pipelineName + "-" + watched[i]
  }

  /** Re-running the declaration of the alarms on distinct metrics leaves the backend's
      alarms as one run left them, and one run declares exactly one alarm name per metric
      on top of what was there. */
  lemma AlarmSyncIdempotent(store: map<string, AlarmRequest>, namespace: string, pipelineName: string,
                            snsArn: string, watched: seq<string>)
    requires forall i, j :: 0 <= i < j < |watched| ==> watched[i] != watched[j]
    ensures var decls := AlarmsFor(namespace, pipelineName, snsArn, watched);
      var once := Upserts.Declare(store, decls, (a: AlarmRequest) => a.alarmName);
      && Upserts.Declare(once, decls, (a: AlarmRequest) => a.alarmName) == once
      && once.Keys == store.Keys + AlarmNames(pipelineName, watched)
      && |AlarmNames(pipelineName, watched)| == |watched|
  {
    var decls := AlarmsFor(namespace, pipelineName, snsArn, watched);
    var key := (a: AlarmRequest) => a.alarmName;
    AlarmsForShape(namespace, pipelineName, snsArn, watched);
    Upserts.DeclareTwice(store, decls, key);
    assert Upserts.Names(decls, key) == AlarmNames(pipelineName, watched) by {
      forall n | n in AlarmNames(pipelineName, watched) ensures n in Upserts.Names(decls, key) {
        var i :| 0 <= i < |watched| && n == pipelineName + "-" + watched[i];
        assert key(decls[i]) == n;
      }
    }
    Upserts.NamesCount(decls, key);
  }

  /** The alarms `update_alarms` declares, re-declared, change nothing; one run adds the
      six names `<pipeline>-<check type>`. */
  lemma ScriptAlarmSyncIdempotent(store: map<string, AlarmRequest>, namespace: string, pipelineName: string,
                                  snsArn: string)
    ensures var decls := UpdateAlarmsAsWritten(namespace, pipelineName, snsArn);
      var once := Upserts.Declare(store, decls, (a: AlarmRequest) => a.alarmName);
      && Upserts.Declare(once, decls, (a: AlarmRequest) => a.alarmName) == once
      && once.Keys == store.Keys + AlarmNames(pipelineName, Deequ.CheckTypes)
      && |AlarmNames(pipelineName, Deequ.CheckTypes)| == 6
  {
    AlarmSyncIdempotent(store, namespace, pipelineName, snsArn, Deequ.CheckTypes);
  }
}

=== FILE: deequ.dfy ===
/**
 * The `deequ` interpreter: a constraint-violations document, as written by the data
 * quality monitoring job, turned into an ordered sequence of normalised metrics.
 *
 * A violation entry is a JSON object, modelled as a map from key to string value, so
 * that a missing key raises a `KeyError` exactly where the interpreter reads it. The
 * interpreter is a generator that the caller drains completely, so the first error
 * raised by any entry is the outcome of the whole call.
 */
module Deequ {
  import opened Wrappers
  import DriftPattern

  /** One violation object of the document. */
  type Entry = map<string, string>

  /** The document: the `violations` list, when the key is present. */
  datatype Report = Report(violations: Option<seq<Entry>>)

  /** A normalised metric record. Floating-point values are modelled as reals. */
  datatype Metric = Metric(name: string, value: real, threshold: real, feature: string, pipelineName: string)

  /** What reading an entry can raise: a missing key, or a capture group that is not a
      number. */
  datatype Error = KeyError(key: string) | ValueError(text: string)

  /** Conversion of a captured text to a number; `None` where the conversion raises. */
  type FloatParser = string -> Option<real>

  const FeatureNameKey: string := "feature_name"
  const CheckTypeKey: string := "constraint_check_type"
  const DescriptionKey: string := "description"

  const DriftCheck: string := "baseline_drift_check"
  const DriftMetric: string := "feature_baseline_drift"

  /** The six check types the monitoring job reports. */
  const CheckTypes: seq<string> := ["data_type_check", "completeness_check", DriftCheck,
                                    "missing_column_check", "extra_column_check", "categorical_values_check"]

  /** Every check type named in `vs` is one of the six. */
  predicate RecognisedEntries(vs: seq<Entry>) {
    forall i :: 0 <= i < |vs| && CheckTypeKey in vs[i] ==> vs[i][CheckTypeKey] in CheckTypes
  }

  /** Whether an entry is a drift check (an entry without a check type is not). */
  predicate IsDriftEntry(v: Entry) {
    CheckTypeKey in v && v[CheckTypeKey] == DriftCheck
  }

  /** The metric, if any, for one violation entry. */
  function InterpretEntry(v: Entry, pipelineName: string, parse: FloatParser): (r: Result<Option<Metric>, Error>)
    // the check type is read first, for every entry
    ensures CheckTypeKey !in v ==> r == Failure(KeyError(CheckTypeKey))
    // a drift entry without a description raises
    ensures IsDriftEntry(v) && DescriptionKey !in v ==> r == Failure(KeyError(DescriptionKey))
    // every other check type, known or not, becomes a 1/1 metric named after it
    ensures CheckTypeKey in v && !IsDriftEntry(v) ==>
      r == (if FeatureNameKey in v
            then Success(Some(Metric(v[CheckTypeKey], 1.0, 1.0, v[FeatureNameKey], pipelineName)))
            else Failure(KeyError(FeatureNameKey)))
    // only drift entries are ever dropped
    ensures r == Success(None) ==> IsDriftEntry(v)
    // a produced metric carries the pipeline name verbatim and is never named after the drift check
    ensures r.Success? && r.value.Some? ==>
      && r.value.value.pipelineName == pipelineName
      && FeatureNameKey in v && r.value.value.feature == v[FeatureNameKey]
      && r.value.value.name != DriftCheck
  {
    if CheckTypeKey !in v then Failure(KeyError(CheckTypeKey))
    else if v[CheckTypeKey] == DriftCheck then
      if DescriptionKey !in v then Failure(KeyError(DescriptionKey))
      else
        match DriftPattern.Search(v[DescriptionKey])
        case None => Success(None)
        case Some(g) =>
          if FeatureNameKey !in v then Failure(KeyError(FeatureNameKey))
          else match (parse(g.distance), parse(g.threshold))
            case (None, _) => Failure(ValueError(g.distance))
            case (Some(_), None) => Failure(ValueError(g.threshold))
            case (Some(d), Some(t)) => Success(Some(Metric(DriftMetric, d, t, v[FeatureNameKey], pipelineName)))
    else if FeatureNameKey !in v then Failure(KeyError(FeatureNameKey))
    else Success(Some(Metric(v[CheckTypeKey], 1.0, 1.0, v[FeatureNameKey], pipelineName)))
  }

  /** The metrics for a list of entries, in order; the first entry that raises decides
      the outcome. */
  function InterpretAll(vs: seq<Entry>, pipelineName: string, parse: FloatParser): (r: Result<seq<Metric>, Error>)
    ensures r.Success? ==> |r.value| <= |vs|
    ensures r.Success? && (forall i :: 0 <= i < |vs| ==> !IsDriftEntry(vs[i])) ==> |r.value| == |vs|
    ensures r.Success? ==> forall k :: 0 <= k < |r.value| ==>
      r.value[k].name != DriftCheck && r.value[k].pipelineName == pipelineName
    decreases |vs|
  {
    if |vs| == 0 then Success([])
    else
      var first :- InterpretEntry(vs[0], pipelineName, parse);
      var rest :- InterpretAll(vs[1..], pipelineName, parse);
      Success(OptionToSeq(first) + rest)
  }

  /** `deequ`: the metrics of a whole document. A document without a `violations` key
      yields no metrics. */
  function Interpret(report: Report, pipelineName: string, parse: FloatParser): (r: Result<seq<Metric>, Error>)
    ensures report.violations.None? ==> r == Success([])
    ensures r.Success? ==> forall k :: 0 <= k < |r.value| ==>
      r.value[k].name != DriftCheck && r.value[k].pipelineName == pipelineName
  {
    match report.violations
    case None => Success([])
    case Some(vs) => InterpretAll(vs, pipelineName, parse)
  }

  // ---------------------------------------------------------------------------
  // Properties of a single entry.
  // ---------------------------------------------------------------------------

  /** A drift entry with a description: no metric and no error exactly when the
      description does not match the pattern. A matching description needs the feature
      name, read before either group is converted; with it, the entry yields one
      `feature_baseline_drift` metric whose value and threshold are the two groups
      converted to numbers, or a `ValueError` for the first group that is not a number. */
  lemma DriftEntry(v: Entry, pipelineName: string, parse: FloatParser)
    requires IsDriftEntry(v) && DescriptionKey in v
    ensures InterpretEntry(v, pipelineName, parse) == Success(None) <==> !DriftPattern.Matches(v[DescriptionKey])
    ensures DriftPattern.Matches(v[DescriptionKey]) && FeatureNameKey !in v ==>
      InterpretEntry(v, pipelineName, parse) == Failure(KeyError(FeatureNameKey))
    ensures DriftPattern.Matches(v[DescriptionKey]) && FeatureNameKey in v ==>
      var g := DriftPattern.Search(v[DescriptionKey]).value;
      && (exists pre, post :: DriftPattern.IsMatch(v[DescriptionKey], pre, g.distance, g.threshold, post))
      && InterpretEntry(v, pipelineName, parse) ==
           if parse(g.distance).None? then Failure(ValueError(g.distance))
           else if parse(g.threshold).None? then Failure(ValueError(g.threshold))
           else Success(Some(Metric(DriftMetric, parse(g.distance).value, parse(g.threshold).value,
                                    v[FeatureNameKey], pipelineName)))
  {
    DriftPattern.SearchNoneIffNoMatch(v[DescriptionKey]);
    if DriftPattern.Matches(v[DescriptionKey]) {
      DriftPattern.SearchSound(v[DescriptionKey]);
    }
  }

  /** A drift entry whose description does not match is dropped without reading its
      feature name: no metric and no error, even when `feature_name` is missing. */
  lemma UnmatchedDriftDropped(v: Entry, pipelineName: string, parse: FloatParser)
    requires IsDriftEntry(v) && DescriptionKey in v
    requires !DriftPattern.Matches(v[DescriptionKey])
    ensures InterpretEntry(v, pipelineName, parse) == Success(None)
  {
    DriftPattern.SearchNoneIffNoMatch(v[DescriptionKey]);
  }

  // ---------------------------------------------------------------------------
  // Properties of a list of entries.
  // ---------------------------------------------------------------------------

  /** How the outcomes of two consecutive runs of entries combine: the first error wins,
      and otherwise the metrics are concatenated in order. */
  function Combine(a: Result<seq<Metric>, Error>, b: Result<seq<Metric>, Error>): Result<seq<Metric>, Error> {
    if a.Failure? then a
    else if b.Failure? then b
    else Success(a.value + b.value)
  }

  /** Interpretation distributes over concatenation of entry lists: metrics keep the
      relative order of the entries they come from, and the earliest error wins. */
  lemma {:induction false} InterpretAllAppend(xs: seq<Entry>, ys: seq<Entry>, pipelineName: string, parse: FloatParser)
    ensures InterpretAll(xs + ys, pipelineName, parse)
         == Combine(InterpretAll(xs, pipelineName, parse), InterpretAll(ys, pipelineName, parse))
    decreases |xs|
  {
    if |xs| == 0 {
      assert xs + ys == ys;
      var b := InterpretAll(ys, pipelineName, parse);
      if b.Success? {
        assert [] + b.value == b.value;
      }
    } else {
      assert (xs + ys)[0] == xs[0];
      assert (xs + ys)[1..] == xs[1..] + ys;
      InterpretAllAppend(xs[1..], ys, pipelineName, parse);
      var first := InterpretEntry(xs[0], pipelineName, parse);
      if first.Success? {
        var a := InterpretAll(xs[1..], pipelineName, parse);
        var b := InterpretAll(ys, pipelineName, parse);
        if a.Success? && b.Success? {
          assert OptionToSeq(first.value) + (a.value + b.value) == (OptionToSeq(first.value) + a.value) + b.value;
        }
      }
    }
  }

  /** A single entry interpreted as a list: its own outcome, as zero or one metric. */
  lemma InterpretAllSingle(v: Entry, pipelineName: string, parse: FloatParser)
    ensures InterpretAll([v], pipelineName, parse)
         == match InterpretEntry(v, pipelineName, parse)
            case Failure(e) => Failure(e)
            case Success(o) => Success(OptionToSeq(o))
  {
    assert [v][1..] == [];
    match InterpretEntry(v, pipelineName, parse)
    case Failure(e) =>
    case Success(o) => assert OptionToSeq(o) + [] == OptionToSeq(o);
  }

  /** Interpretation fails exactly when some entry raises. */
  lemma {:induction false} InterpretAllFailsIff(vs: seq<Entry>, pipelineName: string, parse: FloatParser)
    ensures InterpretAll(vs, pipelineName, parse).Failure? <==>
      exists i :: 0 <= i < |vs| && InterpretEntry(vs[i], pipelineName, parse).Failure?
    decreases |vs|
  {
    if |vs| > 0 {
      InterpretAllFailsIff(vs[1..], pipelineName, parse);
      if exists i :: 1 <= i < |vs| && InterpretEntry(vs[i], pipelineName, parse).Failure? {
        var i :| 1 <= i < |vs| && InterpretEntry(vs[i], pipelineName, parse).Failure?;
        assert vs[1..][i - 1] == vs[i];
      }
      if InterpretAll(vs[1..], pipelineName, parse).Failure? {
        var i :| 0 <= i < |vs[1..]| && InterpretEntry(vs[1..][i], pipelineName, parse).Failure?;
        assert vs[1..][i] == vs[i + 1];
      }
    }
  }

  /** When entry `i` is the first entry that raises, its error is the outcome of the
      whole interpretation. */
  lemma {:induction false} InterpretAllFirstError(vs: seq<Entry>, i: nat, pipelineName: string, parse: FloatParser)
    requires i < |vs| && InterpretEntry(vs[i], pipelineName, parse).Failure?
    requires forall m :: 0 <= m < i ==> InterpretEntry(vs[m], pipelineName, parse).Success?
    ensures InterpretAll(vs, pipelineName, parse) == Failure(InterpretEntry(vs[i], pipelineName, parse).error)
    decreases i
  {
    if i > 0 {
      assert InterpretEntry(vs[0], pipelineName, parse).Success?;
      assert vs[1..][i - 1] == vs[i];
      forall m | 0 <= m < i - 1 ensures InterpretEntry(vs[1..][m], pipelineName, parse).Success? {
        assert vs[1..][m] == vs[m + 1];
      }
      InterpretAllFirstError(vs[1..], i - 1, pipelineName, parse);
    }
  }

  /** When every entry carries one of the six check types, every metric is named either
      `feature_baseline_drift` or after one of the five other check types. */
  lemma {:induction false} RecognisedMetricNames(vs: seq<Entry>, pipelineName: string, parse: FloatParser)
    requires RecognisedEntries(vs)
    ensures InterpretAll(vs, pipelineName, parse).Success? ==>
      forall k :: 0 <= k < |InterpretAll(vs, pipelineName, parse).value| ==>
        var n := InterpretAll(vs, pipelineName, parse).value[k].name;
        n == DriftMetric || (n in CheckTypes && n != DriftCheck)
    decreases |vs|
  {
    if |vs| > 0 {
      assert RecognisedEntries(vs[1..]) by {
        forall i | 0 <= i < |vs[1..]| ensures vs[1..][i] == vs[i + 1] { }
      }
      RecognisedMetricNames(vs[1..], pipelineName, parse);
      var first := InterpretEntry(vs[0], pipelineName, parse);
      var rest := InterpretAll(vs[1..], pipelineName, parse);
      if first.Success? && rest.Success? {
        assert InterpretAll(vs, pipelineName, parse) == Success(OptionToSeq(first.value) + rest.value);
        RecognisedEntryName(vs[0], pipelineName, parse);
        RecognisedNamesAppend(first.value, rest.value);
      }
    }
  }

  /** The name of the metric of one entry with one of the six check types. */
  lemma RecognisedEntryName(v: Entry, pipelineName: string, parse: FloatParser)
    requires CheckTypeKey in v ==> v[CheckTypeKey] in CheckTypes
    ensures var r := InterpretEntry(v, pipelineName, parse);
      r.Success? && r.value.Some? ==>
        r.value.value.name == DriftMetric || (r.value.value.name in CheckTypes && r.value.value.name != DriftCheck)
  {
  }

  /** The naming argument on its own: prepending an entry's metric keeps every name
      recognised. */
  lemma RecognisedNamesAppend(first: Option<Metric>, rest: seq<Metric>)
    requires first.Some? ==> first.value.name == DriftMetric || (first.value.name in CheckTypes && first.value.name != DriftCheck)
    requires forall k :: 0 <= k < |rest| ==> rest[k].name == DriftMetric || (rest[k].name in CheckTypes && rest[k].name != DriftCheck)
    ensures var ms := OptionToSeq(first) + rest;
      forall k :: 0 <= k < |ms| ==> ms[k].name == DriftMetric || (ms[k].name in CheckTypes && ms[k].name != DriftCheck)
  {
    var ms := OptionToSeq(first) + rest;
    forall k | 0 <= k < |ms| ensures ms[k].name == DriftMetric || (ms[k].name in CheckTypes && ms[k].name != DriftCheck) {
      if k >= |OptionToSeq(first)| {
        assert ms[k] == rest[k - |OptionToSeq(first)|];
      }
    }
  }

  /** A completeness scenario: one completeness violation on feature `length` in
      pipeline `demo` gives exactly one 1/1 metric named after the check. */
  lemma CompletenessScenario(parse: FloatParser)
    ensures Interpret(Report(Some([map[FeatureNameKey := "length", CheckTypeKey := "completeness_check", DescriptionKey := "x"]])), "demo", parse)
         == Success([Metric("completeness_check", 1.0, 1.0, "length", "demo")])
  {
    var v := map[FeatureNameKey := "length", CheckTypeKey := "completeness_check", DescriptionKey := "x"];
    InterpretAllSingle(v, "demo", parse);
  }

  /** A drift scenario: distance `0.42` over threshold `0.30`. */
  lemma DriftScenario(parse: FloatParser)
    requires parse("0.42") == Some(0.42) && parse("0.30") == Some(0.30)
    ensures Interpret(Report(Some([map[FeatureNameKey := "f", CheckTypeKey := DriftCheck,
                                       DescriptionKey := "distance: 0.42 exceeds threshold: 0.30"]])), "demo", parse)
         == Success([Metric(DriftMetric, 0.42, 0.30, "f", "demo")])
  {
    var v := map[FeatureNameKey := "f", CheckTypeKey := DriftCheck, DescriptionKey := "distance: 0.42 exceeds threshold: 0.30"];
    DriftPattern.SearchExample();
    InterpretAllSingle(v, "demo", parse);
  }
}

=== FILE: drift_pattern.dfy ===
/**
 * The drift-description pattern `distance: (.+) exceeds threshold: (.+)`, searched
 * (unanchored) the way a backtracking regular-expression engine does: the leftmost
 * start position wins, each `(.+)` is greedy, and `.` matches any character except
 * a line feed.
 *
 * `IsMatch` states what a match is; `Search` computes the match the engine reports.
 * The lemmas at the end show that `Search` finds a match exactly when one exists,
 * that what it returns is a match, and that it is the leftmost one with the longest
 * first group.
 */
module DriftPattern {
  import opened Wrappers

  const DistanceLit: string := "distance: "
  const ThresholdLit: string := " exceeds threshold: "

  /** The two capture groups of a successful search. */
  datatype Groups = Groups(distance: string, threshold: string)

  /** Where a successful search starts, with its groups. */
  datatype Hit = Hit(start: nat, groups: Groups)

  predicate NoNewline(s: string) {
    forall k :: 0 <= k < |s| ==> s[k] != '\n'
  }

  /** `lit` occurs in `s` at index `i`. */
  predicate LitAt(s: string, lit: string, i: nat) {
    i + |lit| <= |s| && s[i..i + |lit|] == lit
  }

  /** `desc` splits as `pre`, the first literal, group 1, the second literal, group 2 and
      `post`, where both groups are non-empty and stay on one line. */
  ghost predicate IsMatch(desc: string, pre: string, g1: string, g2: string, post: string) {
    && desc == pre + DistanceLit + g1 + ThresholdLit + g2 + post
    && |g1| > 0 && |g2| > 0
    && NoNewline(g1) && NoNewline(g2)
  }

  /** The search succeeds somewhere in `desc`. */
  ghost predicate Matches(desc: string) {
    exists pre, g1, g2, post :: IsMatch(desc, pre, g1, g2, post)
  }

  /** The index of the first line feed at or after `k`, or `|s|` if there is none:
      how far a greedy `.+` starting at `k` can reach. */
  function LineEnd(s: string, k: nat): (e: nat)
    requires k <= |s|
    ensures k <= e <= |s|
    ensures e == |s| || s[e] == '\n'
    ensures forall m :: k <= m < e ==> s[m] != '\n'
    decreases |s| - k
  {
    if k == |s| || s[k] == '\n' then k else LineEnd(s, k + 1)
  }

  /** The largest index `m` with `lo < m <= hi` at which the second literal occurs:
      the backtracking order of a greedy first group. */
  function LastThreshold(s: string, lo: nat, hi: int): (r: Option<nat>)
    ensures r.Some? ==> lo < r.value <= hi && LitAt(s, ThresholdLit, r.value)
    ensures r.Some? ==> forall m: nat :: r.value < m <= hi ==> !LitAt(s, ThresholdLit, m)
    ensures r.None? ==> forall m: nat :: lo < m <= hi ==> !LitAt(s, ThresholdLit, m)
    decreases hi - lo
  {
    if hi <= lo then None
    else if LitAt(s, ThresholdLit, hi) then Some(hi)
    else LastThreshold(s, lo, hi - 1)
  }

  /** The match, if any, that starts exactly at index `i`. Group 1 is as long as
      possible; group 2 then runs to the end of its line. */
  function MatchAt(s: string, i: nat): Option<Groups> {
    if !LitAt(s, DistanceLit, i) then None
    else
      var b := i + |DistanceLit|;
      var e := LineEnd(s, b);
      match LastThreshold(s, b, e - |ThresholdLit| - 1)
      case None => None
      case Some(j) => Some(Groups(s[b..j], s[j + |ThresholdLit|..e]))
  }

  /** Try every start position from `i` on, left to right. */
  function SearchFrom(s: string, i: nat): (r: Option<Hit>)
    ensures r.Some? ==> i <= r.value.start < |s| && MatchAt(s, r.value.start) == Some(r.value.groups)
    ensures r.Some? ==> forall m: nat :: i <= m < r.value.start ==> MatchAt(s, m).None?
    ensures r.None? ==> forall m: nat :: i <= m < |s| ==> MatchAt(s, m).None?
    decreases |s| - i
  {
    if i >= |s| then None
    else match MatchAt(s, i)
      case Some(g) => Some(Hit(i, g))
      case None => SearchFrom(s, i + 1)
  }

  /** The groups of the first match in `desc`, as an unanchored regular-expression
      search reports them, or `None` when the pattern does not occur. */
  function Search(desc: string): (r: Option<Groups>)
    ensures r.Some? ==> exists pre, post :: IsMatch(desc, pre, r.value.distance, r.value.threshold, post)
  {
    match SearchFrom(desc, 0)
    case None => None
    case Some(h) =>
      MatchAtSound(desc, h.start);
      ReportedMatch(desc, h.start, h.groups);
      Some(h.groups)
  }

  lemma ReportedMatch(desc: string, i: nat, g: Groups)
    requires i <= |desc|
    requires exists post :: IsMatch(desc, desc[..i], g.distance, g.threshold, post)
    ensures exists pre, post :: IsMatch(desc, pre, g.distance, g.threshold, post)
  {
    var post :| IsMatch(desc, desc[..i], g.distance, g.threshold, post);
  }

  // ---------------------------------------------------------------------------
  // Index facts relating a split of `s` to positions in `s`.
  // ---------------------------------------------------------------------------

  /** A match read off as index facts about `s`. */
  lemma MatchPositions(s: string, pre: string, g1: string, g2: string, post: string)
    requires IsMatch(s, pre, g1, g2, post)
    ensures var i, j := |pre|, |pre| + |DistanceLit| + |g1|;
      && LitAt(s, DistanceLit, i)
      && LitAt(s, ThresholdLit, j)
      && s[..i] == pre
      && s[i + |DistanceLit|..j] == g1
      && s[j + |ThresholdLit|..j + |ThresholdLit| + |g2|] == g2
      && s[j + |ThresholdLit| + |g2|..] == post
      && forall m :: i + |DistanceLit| <= m < j + |ThresholdLit| + |g2| ==> s[m] != '\n'
  {
    var i, j := |pre|, |pre| + |DistanceLit| + |g1|;
    var k := j + |ThresholdLit|;
    var e := k + |g2|;
    assert s[i..i + |DistanceLit|] == DistanceLit;
    assert s[j..k] == ThresholdLit;
    forall m | i + |DistanceLit| <= m < e
      ensures s[m] != '\n'
    {
      if m < j {
        assert s[m] == g1[m - i - |DistanceLit|];
      } else if m < k {
        assert s[m] == ThresholdLit[m - j];
      } else {
        assert s[m] == g2[m - k];
      }
    }
  }

  /** A prefix extended by the slice that follows it. */
  lemma Join(s: string, a: nat, b: nat)
    requires a <= b <= |s|
    ensures s[..b] == s[..a] + s[a..b]
  {
  }

  /** Index facts about `s` assembled back into a match. */
  lemma PositionsMatch(s: string, i: nat, j: nat, e: nat)
    requires LitAt(s, DistanceLit, i) && LitAt(s, ThresholdLit, j)
    requires i + |DistanceLit| < j && j + |ThresholdLit| < e <= |s|
    requires forall m :: i + |DistanceLit| <= m < e ==> s[m] != '\n'
    ensures IsMatch(s, s[..i], s[i + |DistanceLit|..j], s[j + |ThresholdLit|..e], s[e..])
  {
    var b, k := i + |DistanceLit|, j + |ThresholdLit|;
    Join(s, i, b);
    Join(s, b, j);
    Join(s, j, k);
    Join(s, k, e);
    Whole(s, e);
    NoNewlineSlice(s, b, j);
    NoNewlineSlice(s, k, e);
  }

  lemma Whole(s: string, e: nat)
    requires e <= |s|
    ensures s == s[..e] + s[e..]
  {
  }

  /** A slice of a stretch without line breaks has none either. */
  lemma NoNewlineSlice(s: string, a: nat, c: nat)
    requires a <= c <= |s|
    requires forall m :: a <= m < c ==> s[m] != '\n'
    ensures NoNewline(s[a..c])
  {
    forall m | 0 <= m < c - a ensures s[a..c][m] != '\n' {
      assert s[a..c][m] == s[a + m];
    }
  }

  // ---------------------------------------------------------------------------
  // One start position.
  // ---------------------------------------------------------------------------

  /** What `MatchAt` returns is a match starting at `i` whose second group reaches the
      end of its line. */
  lemma {:induction false} MatchAtSound(s: string, i: nat)
    requires MatchAt(s, i).Some?
    ensures var g := MatchAt(s, i).value;
      exists post :: IsMatch(s, s[..i], g.distance, g.threshold, post) && (post == [] || post[0] == '\n')
  {
    var b := i + |DistanceLit|;
    var e := LineEnd(s, b);
    var j := LastThreshold(s, b, e - |ThresholdLit| - 1).value;
    assert MatchAt(s, i).value == Groups(s[b..j], s[j + |ThresholdLit|..e]);
    PositionsMatch(s, i, j, e);
    var post := s[e..];
    assert post == [] || post[0] == '\n';
  }

  /** A match starting at `|pre|` is found there, and the group 1 found is at least as
      long as the one of that match. */
  lemma {:induction false} MatchAtComplete(s: string, pre: string, g1: string, g2: string, post: string)
    requires IsMatch(s, pre, g1, g2, post)
    ensures MatchAt(s, |pre|).Some?
    ensures |MatchAt(s, |pre|).value.distance| >= |g1|
  {
    MatchPositions(s, pre, g1, g2, post);
    var i := |pre|;
    var b := i + |DistanceLit|;
    var j0 := b + |g1|;
    var e0 := j0 + |ThresholdLit| + |g2|;
    var e := LineEnd(s, b);
    assert e >= e0;
    var r := LastThreshold(s, b, e - |ThresholdLit| - 1);
    assert r.Some? && r.value >= j0;
  }

  // ---------------------------------------------------------------------------
  // The whole search.
  // ---------------------------------------------------------------------------

  /** Whatever `Search` reports is a match of the pattern in `desc`, and its second group
      runs to the end of its line. */
  lemma SearchSound(desc: string)
    requires Search(desc).Some?
    ensures var g := Search(desc).value;
      exists pre, post :: IsMatch(desc, pre, g.distance, g.threshold, post) && (post == [] || post[0] == '\n')
  {
    var h := SearchFrom(desc, 0).value;
    MatchAtSound(desc, h.start);
    var g := Search(desc).value;
    var post :| IsMatch(desc, desc[..h.start], g.distance, g.threshold, post) && (post == [] || post[0] == '\n');
    assert IsMatch(desc, desc[..h.start], g.distance, g.threshold, post);
  }

  /** `Search` finds nothing exactly when the pattern does not occur in `desc`. */
  lemma SearchNoneIffNoMatch(desc: string)
    ensures Search(desc).None? <==> !Matches(desc)
  {
    if Search(desc).Some? {
      SearchSound(desc);
    }
    if Matches(desc) {
      var pre, g1, g2, post :| IsMatch(desc, pre, g1, g2, post);
      MatchAtComplete(desc, pre, g1, g2, post);
      assert |pre| < |desc|;
    }
  }

  /** Among all matches in `desc`, `Search` reports one that starts leftmost and, among
      those, has the longest first group; its second group runs to the end of its line. */
  lemma SearchLeftmostLongest(desc: string, pre: string, g1: string, g2: string, post: string)
    requires IsMatch(desc, pre, g1, g2, post)
    ensures Search(desc).Some?
    ensures var g := Search(desc).value;
      exists pre', post' ::
        && IsMatch(desc, pre', g.distance, g.threshold, post')
        && (post' == [] || post'[0] == '\n')
        && (|pre'| < |pre| || (|pre'| == |pre| && |g.distance| >= |g1|))
  {
    MatchAtComplete(desc, pre, g1, g2, post);
    assert |pre| < |desc|;
    var h := SearchFrom(desc, 0).value;
    assert h.start <= |pre|;
    MatchAtSound(desc, h.start);
    var g := h.groups;
    var post' :| IsMatch(desc, desc[..h.start], g.distance, g.threshold, post') && (post' == [] || post'[0] == '\n');
    assert Search(desc) == Some(g);
    assert |desc[..h.start]| == h.start;
    assert IsMatch(desc, desc[..h.start], g.distance, g.threshold, post')
      && (post' == [] || post'[0] == '\n')
      && (h.start < |pre| || (h.start == |pre| && |g.distance| >= |g1|));
  }

  /** A typical drift description, written as a split around the two groups. */
  lemma ExampleIsMatch()
    ensures IsMatch("distance: 0.42 exceeds threshold: 0.30", "", "0.42", "0.30", "")
  {
    assert "distance: 0.42 exceeds threshold: 0.30" == "" + DistanceLit + "0.42" + ThresholdLit + "0.30" + "";
  }

  /** That description is split into distance `0.42` and threshold `0.30`; an unrelated
      text does not match. */
  lemma SearchExample()
    ensures Search("distance: 0.42 exceeds threshold: 0.30") == Some(Groups("0.42", "0.30"))
    ensures Search("drift happened") == None
  {
    var s := "distance: 0.42 exceeds threshold: 0.30";
    ExampleIsMatch();
    MatchPositions(s, "", "0.42", "0.30", "");
    assert LineEnd(s, 10) == 38;
    assert s[15] == s[14..34][1] == 'e';
    assert s[16] == s[14..34][2] == 'x';
    assert s[17] == s[14..34][3] == 'c';
    assert LastThreshold(s, 10, 17) == Some(14);
    assert MatchAt(s, 0) == Some(Groups("0.42", "0.30"));
  }
}

=== FILE: driver.dfy ===
/**
 * The script's entry point as a one-shot run: optionally synchronise the rules and the
 * alarms, look for the violations file, interpret it and publish the metrics. A run is
 * described by the trace of effects it performs and the way it ends.
 *
 * Every call to a backend may raise; `failAt` names the backend call (counted from 0
 * over the run's backend calls) that does, and the run stops there.
 */
module Driver {
  import opened Wrappers
  import Deequ
  import CloudWatch
  import EventBridge

  /** The violation formats the script accepts: the command line admits only `deequ`. */
  datatype Framework = DeequFramework

  /** The parsed command line. The logging level is not modelled. */
  datatype Args = Args(
    pipelineName: string,
    pipelineArn: string,
    snsNotificationArn: string,
    snsCustomNotificationArn: string,
    updateRules: string,
    metricsNamespace: string,
    framework: Framework,
    violationsFile: string)

  /** What is found at the violations file path. */
  datatype ViolationsFile = Absent | Malformed | Present(report: Deequ.Report)

  datatype Effect =
    | RuleCall(call: EventBridge.RuleCall)
    | AlarmDeclared(alarm: CloudWatch.AlarmRequest)
    | FileChecked(path: string)
    | Published(request: CloudWatch.PutMetricDataRequest)

  datatype Failure = BadViolation(error: Deequ.Error) | MalformedJson | BackendRejected(call: Effect)

  datatype Ending = NoViolationsFile | Completed | Crashed(failure: Failure)

  datatype Run = Run(trace: seq<Effect>, ending: Ending)

  /** The process exit status of a run: an uncaught exception exits with status 1. */
  function ExitCode(e: Ending): int {
    match e
    case NoViolationsFile => 0
    case Completed => 0
    case Crashed(_) => 1
  }

  predicate IsDeclaration(e: Effect) {
    e.RuleCall? || e.AlarmDeclared?
  }

  /** The formatter chosen by the `--framework` argument. */
  function Format(f: Framework, report: Deequ.Report, pipelineName: string, parse: Deequ.FloatParser)
    : Result<seq<Deequ.Metric>, Deequ.Error>
  {
    match f
    case DeequFramework => Deequ.Interpret(report, pipelineName, parse)
  }

  /** Which alarms the synchronisation declares: the script's own `update_alarms`, whose
      drift alarm watches `baseline_drift_check`, or the corrected list, whose drift alarm
      watches `feature_baseline_drift`, the metric a drift violation is published under. */
  datatype AlarmList = AsWritten | Corrected

  function Alarms(which: AlarmList, args: Args): seq<CloudWatch.AlarmRequest> {
    match which
    case AsWritten => CloudWatch.UpdateAlarmsAsWritten(args.metricsNamespace, args.pipelineName, args.snsNotificationArn)
    case Corrected => CloudWatch.UpdateAlarms(args.metricsNamespace, args.pipelineName, args.snsNotificationArn)
  }

  /** The declarations of the synchronisation step: the rules and their targets, then the
      alarms; none unless `--update-rules` is `True`. */
  function SyncCalls(which: AlarmList, args: Args): (r: seq<Effect>)
    ensures args.updateRules != "True" ==> r == []
    ensures args.updateRules == "True" ==> |r| == 10
    ensures forall i :: 0 <= i < |r| ==> (r[i].RuleCall? <==> i < 4) && (r[i].AlarmDeclared? <==> 4 <= i)
    ensures forall i :: 0 <= i < |r| ==> IsDeclaration(r[i])
  {
    if args.updateRules == "True" then RuleEffects(args) + AlarmEffects(Alarms(which, args)) else []
  }

  /** The rule and target declarations of `update_eventbridge_rules`. */
  function RuleEffects(args: Args): (r: seq<Effect>)
    ensures |r| == 4 && forall i :: 0 <= i < 4 ==> r[i].RuleCall?
  {
    var rules := EventBridge.UpdateEventbridgeRules(args.snsNotificationArn, args.pipelineName,
                                                    args.snsCustomNotificationArn, args.pipelineArn);
    seq(|rules|, i requires 0 <= i < |rules| => RuleCall(rules[i]))
  }

  /** One declaration per alarm, in order. */
  function AlarmEffects(alarms: seq<CloudWatch.AlarmRequest>): (r: seq<Effect>)
    ensures |r| == |alarms| && forall i :: 0 <= i < |r| ==> r[i] == AlarmDeclared(alarms[i])
  {
    seq(|alarms|, i requires 0 <= i < |alarms| => AlarmDeclared(alarms[i]))
  }

  /** What the synchronisation declares: the rule calls for the run's topics, pipeline and
      ARN, then the chosen alarm list, whose alarms all follow the script's template and whose
      third one, the drift alarm, watches the metric of that list. */
  lemma SyncDeclarations(which: AlarmList, args: Args)
    ensures var r := SyncCalls(which, args);
      && (args.updateRules == "True" ==>
            && (forall i :: 0 <= i < 4 ==>
                  r[i] == RuleCall(EventBridge.UpdateEventbridgeRules(args.snsNotificationArn, args.pipelineName,
                                                                      args.snsCustomNotificationArn, args.pipelineArn)[i]))
            && (forall i :: 4 <= i < 10 ==> r[i] == AlarmDeclared(Alarms(which, args)[i - 4])))
      && (forall i :: 4 <= i < |r| ==>
            CloudWatch.StandardAlarm(r[i].alarm, args.metricsNamespace, args.pipelineName, args.snsNotificationArn))
      && (|r| == 10 ==> r[6].alarm.metricName == (if which == AsWritten then Deequ.DriftCheck else Deequ.DriftMetric))
  {
    var r := SyncCalls(which, args);
    if args.updateRules == "True" {
      var rules := RuleEffects(args);
      var alarms := Alarms(which, args);
      CloudWatch.AlarmListsAgree(args.metricsNamespace, args.pipelineName, args.snsNotificationArn);
      forall i | 0 <= i < 4 ensures r[i] == rules[i] {
        assert r[i] == (rules + AlarmEffects(alarms))[i];
      }
      forall i | 4 <= i < 10 ensures r[i] == AlarmDeclared(alarms[i - 4]) {
        assert r[i] == AlarmEffects(alarms)[i - 4];
      }
    }
  }

  /** The metric publications, one per metric, in order. */
  function PublishCalls(metrics: seq<Deequ.Metric>, namespace: string): seq<Effect> {
    var reqs := CloudWatch.PutCloudwatchMetric(metrics, namespace);
    seq(|reqs|, i requires 0 <= i < |reqs| => Published(reqs[i]))
  }

  /** Whether the backend call with index `failAt`, counted over the whole run, is one of
      `calls`, given that `before` backend calls precede them. */
  predicate FailsWithin(calls: seq<Effect>, before: nat, failAt: Option<nat>) {
    failAt.Some? && before <= failAt.value < before + |calls|
  }

  /** The calls that are made: all of them, or those up to and including the one that
      raises. */
  function Sent(calls: seq<Effect>, before: nat, failAt: Option<nat>): (r: seq<Effect>)
    ensures FailsWithin(calls, before, failAt) ==> r == calls[..failAt.value - before + 1]
    ensures !FailsWithin(calls, before, failAt) ==> r == calls
  {
    if FailsWithin(calls, before, failAt) then calls[..failAt.value - before + 1] else calls
  }

  /** A run of the entry point with the given alarm list. */
  function Execute(which: AlarmList, args: Args, file: ViolationsFile, parse: Deequ.FloatParser, failAt: Option<nat>)
    : Run
  {
    var sync := SyncCalls(which, args);
    if FailsWithin(sync, 0, failAt) then
      var sent := Sent(sync, 0, failAt);
      Run(sent, Crashed(BackendRejected(sent[|sent| - 1])))
    else
      var rest := AfterSync(args, file, parse, failAt, |sync|);
      Run(sync + rest.trace, rest.ending)
  }

  /** The part of a run after a synchronisation of `before` backend calls that all
      succeeded: the check for the file, then the interpretation and the publications. */
  function AfterSync(args: Args, file: ViolationsFile, parse: Deequ.FloatParser, failAt: Option<nat>, before: nat)
    : Run
  {
    var checked := [FileChecked(args.violationsFile)];
    match file
    case Absent => Run(checked, NoViolationsFile)
    case Malformed => Run(checked, Crashed(MalformedJson))
    case Present(report) =>
      match Format(args.framework, report, args.pipelineName, parse)
      case Failure(e) => Run(checked, Crashed(BadViolation(e)))
      case Success(metrics) =>
        var pubs := PublishCalls(metrics, args.metricsNamespace);
        var sent := Sent(pubs, before, failAt);
        if FailsWithin(pubs, before, failAt)
        then Run(checked + sent, Crashed(BackendRejected(sent[|sent| - 1])))
        else Run(checked + sent, Completed)
  }

  /** `__main__` as written. */
  function Main(args: Args, file: ViolationsFile, parse: Deequ.FloatParser, failAt: Option<nat>): (r: Run)
    // a run without a violations file publishes nothing
    ensures r.ending == NoViolationsFile ==> file == Absent && Publications(r.trace) == []
    // a completed run published exactly the interpreted metrics
    ensures r.ending == Completed ==>
      && file.Present?
      && Deequ.Interpret(file.report, args.pipelineName, parse).Success?
      && Publications(r.trace)
         == CloudWatch.PutCloudwatchMetric(Deequ.Interpret(file.report, args.pipelineName, parse).value, args.metricsNamespace)
  {
    RunOutcome(AsWritten, args, file, parse, failAt);
    Execute(AsWritten, args, file, parse, failAt)
  }

  /** `__main__` with the corrected alarm list. */
  function MainCorrected(args: Args, file: ViolationsFile, parse: Deequ.FloatParser, failAt: Option<nat>): Run {
    Execute(Corrected, args, file, parse, failAt)
  }

  /** The metric-data requests of a trace, in order. */
  function Publications(trace: seq<Effect>): (r: seq<CloudWatch.PutMetricDataRequest>)
    ensures |r| <= |trace|
    ensures (forall i :: 0 <= i < |trace| ==> !trace[i].Published?) ==> r == []
    decreases |trace|
  {
    if |trace| == 0 then []
    else (if trace[0].Published? then [trace[0].request] else []) + Publications(trace[1..])
  }

  /** The backend calls of a trace, in order: every effect but the check for the file. */
  function BackendCalls(trace: seq<Effect>): (r: seq<Effect>)
    ensures |r| <= |trace|
    decreases |trace|
  {
    if |trace| == 0 then []
    else (if trace[0].FileChecked? then [] else [trace[0]]) + BackendCalls(trace[1..])
  }

  // ---------------------------------------------------------------------------
  // Properties of a run.
  // ---------------------------------------------------------------------------

  /** Rules and alarms are declared only when `--update-rules` is `True`; then, unless a
      declaration raises, the run starts with the four rule calls followed by the six
      alarm declarations. */
  lemma SyncGated(args: Args, file: ViolationsFile, parse: Deequ.FloatParser, failAt: Option<nat>)
    ensures var t := Main(args, file, parse, failAt).trace;
      (exists i :: 0 <= i < |t| && IsDeclaration(t[i])) ==> args.updateRules == "True"
    ensures var t := Main(args, file, parse, failAt).trace;
      args.updateRules == "True" && !(failAt.Some? && failAt.value < 10) ==>
        && |t| > 10
        && (forall i :: 0 <= i < 4 ==> t[i].RuleCall?)
        && (forall i :: 4 <= i < 10 ==> t[i].AlarmDeclared?)
        && t[10] == FileChecked(args.violationsFile)
  {
    var sync := SyncCalls(AsWritten, args);
    ExecuteSplit(AsWritten, args, file, parse, failAt);
    AfterSyncShape(args, file, parse, failAt, |sync|);
    GatedTrace(sync, args.updateRules == "True", FailsWithin(sync, 0, failAt),
               if failAt.Some? then failAt.value + 1 else 0, Main(args, file, parse, failAt).trace,
               AfterSync(args, file, parse, failAt, |sync|).trace, args.violationsFile);
  }

  /** The gating argument on its own: no declarations when the update is off; otherwise
      ten of them, rules first, then the file check unless a declaration raised. */
  lemma GatedTrace(sync: seq<Effect>, gated: bool, cutShort: bool, n: nat, t: seq<Effect>, rest: seq<Effect>,
                   path: string)
    requires !gated ==> sync == []
    requires gated ==> |sync| == 10
    requires forall i :: 0 <= i < |sync| ==> (sync[i].RuleCall? <==> i < 4) && (sync[i].AlarmDeclared? <==> 4 <= i)
    requires cutShort ==> n <= |sync| && t == sync[..n]
    requires !cutShort ==> t == sync + rest
    requires |rest| >= 1 && rest[0] == FileChecked(path) && forall i :: 1 <= i < |rest| ==> rest[i].Published?
    ensures (exists i :: 0 <= i < |t| && IsDeclaration(t[i])) ==> gated
    ensures gated && !cutShort ==>
      && |t| > 10
      && (forall i :: 0 <= i < 4 ==> t[i].RuleCall?)
      && (forall i :: 4 <= i < 10 ==> t[i].AlarmDeclared?)
      && t[10] == FileChecked(path)
  {
    if !gated {
      forall i | 0 <= i < |t| ensures !IsDeclaration(t[i]) {
        if !cutShort { assert t[i] == rest[i]; }
      }
    } else if !cutShort {
      assert t[10] == rest[0];
      forall i | 0 <= i < 10 ensures t[i] == sync[i] { }
    }
  }

  /** Every declaration precedes the check for the violations file, and the file is
      checked at most once. */
  lemma SyncBeforeRead(args: Args, file: ViolationsFile, parse: Deequ.FloatParser, failAt: Option<nat>)
    ensures var t := Main(args, file, parse, failAt).trace;
      forall i, j :: 0 <= i < |t| && 0 <= j < |t| && IsDeclaration(t[i]) && t[j].FileChecked? ==> i < j
    ensures var t := Main(args, file, parse, failAt).trace;
      forall i, j :: 0 <= i < j < |t| && t[i].FileChecked? ==> !t[j].FileChecked?
  {
    var sync := SyncCalls(AsWritten, args);
    ExecuteSplit(AsWritten, args, file, parse, failAt);
    AfterSyncShape(args, file, parse, failAt, |sync|);
    TraceOrder(sync, FailsWithin(sync, 0, failAt), if failAt.Some? then failAt.value + 1 else 0,
               Main(args, file, parse, failAt).trace, AfterSync(args, file, parse, failAt, |sync|).trace);
  }

  /** The ordering argument on its own: declarations, cut short, or declarations followed
      by one file check and publications only. */
  lemma TraceOrder(sync: seq<Effect>, cutShort: bool, n: nat, t: seq<Effect>, rest: seq<Effect>)
    requires forall i :: 0 <= i < |sync| ==> IsDeclaration(sync[i])
    requires cutShort ==> n <= |sync| && t == sync[..n]
    requires !cutShort ==> t == sync + rest
    requires !cutShort ==> |rest| >= 1 && rest[0].FileChecked? && forall i :: 1 <= i < |rest| ==> rest[i].Published?
    ensures forall i, j :: 0 <= i < |t| && 0 <= j < |t| && IsDeclaration(t[i]) && t[j].FileChecked? ==> i < j
    ensures forall i, j :: 0 <= i < j < |t| && t[i].FileChecked? ==> !t[j].FileChecked?
  {
    if cutShort {
      assert forall i :: 0 <= i < |t| ==> t[i] == sync[i];
    } else {
      forall i | 0 <= i < |t|
        ensures (i < |sync| ==> IsDeclaration(t[i])) && (i == |sync| ==> t[i].FileChecked?)
                && (i > |sync| ==> t[i].Published?)
      {
        if i >= |sync| { assert t[i] == rest[i - |sync|]; }
      }
    }
  }

  /** Without a violations file the run ends successfully after the check, having
      published nothing (unless a declaration before it raised). */
  lemma AbsentFileExitsZero(args: Args, parse: Deequ.FloatParser, failAt: Option<nat>)
    requires !FailsWithin(SyncCalls(AsWritten, args), 0, failAt)
    ensures var run := Main(args, Absent, parse, failAt);
      && run.ending == NoViolationsFile
      && ExitCode(run.ending) == 0
      && Publications(run.trace) == []
      && run.trace[|run.trace| - 1] == FileChecked(args.violationsFile)
  {
    var sync := SyncCalls(AsWritten, args);
    ExecuteSplit(AsWritten, args, Absent, parse, failAt);
    AfterSyncEnding(args, Absent, parse, failAt, |sync|);
  }

  /** A document without a `violations` key ends the run successfully without a single
      publication. */
  lemma NoViolationsKeyPublishesNothing(args: Args, parse: Deequ.FloatParser)
    ensures var run := Main(args, Present(Deequ.Report(None)), parse, None);
      && run.ending == Completed
      && ExitCode(run.ending) == 0
      && Publications(run.trace) == []
  {
    var file := Present(Deequ.Report(None));
    ExecuteSplit(AsWritten, args, file, parse, None);
    AfterSyncEnding(args, file, parse, None, |SyncCalls(AsWritten, args)|);
    assert CloudWatch.PutCloudwatchMetric([], args.metricsNamespace) == [];
  }

  /** When the file is present, interpretation succeeds and no call raises, the published
      requests are exactly those of `put_cloudwatch_metric` for the interpreted metrics,
      and the run exits with status 0. */
  lemma PublishesInterpretedMetrics(args: Args, report: Deequ.Report, parse: Deequ.FloatParser)
    requires Deequ.Interpret(report, args.pipelineName, parse).Success?
    ensures var run := Main(args, Present(report), parse, None);
      && run.ending == Completed
      && ExitCode(run.ending) == 0
      && Publications(run.trace)
         == CloudWatch.PutCloudwatchMetric(Deequ.Interpret(report, args.pipelineName, parse).value, args.metricsNamespace)
  {
    ExecuteSplit(AsWritten, args, Present(report), parse, None);
    AfterSyncEnding(args, Present(report), parse, None, |SyncCalls(AsWritten, args)|);
  }

  /** A violation entry that raises stops the run before any publication, with exit
      status 1. */
  lemma BadViolationPublishesNothing(args: Args, report: Deequ.Report, parse: Deequ.FloatParser, failAt: Option<nat>)
    requires Deequ.Interpret(report, args.pipelineName, parse).Failure?
    ensures var run := Main(args, Present(report), parse, failAt);
      && ExitCode(run.ending) == 1
      && Publications(run.trace) == []
  {
    var sync := SyncCalls(AsWritten, args);
    var run := Execute(AsWritten, args, Present(report), parse, failAt);
    var rest := AfterSync(args, Present(report), parse, failAt, |sync|);
    ExecuteSplit(AsWritten, args, Present(report), parse, failAt);
    AfterSyncEnding(args, Present(report), parse, failAt, |sync|);
    if FailsWithin(sync, 0, failAt) {
      NoPublications(sync[..failAt.value + 1]);
    } else {
      DeclarationsThen(sync, rest.trace);
    }
  }

  /** A backend call that raises cuts the run short: the run performs a prefix of the
      calls of the run in which nothing raises, ending with the call that raised, and
      exits with status 1. The run is cut exactly when the raising call is one of the
      backend calls the undisturbed run makes, and then the call it names is that one. */
  lemma BackendFailureTruncates(args: Args, file: ViolationsFile, parse: Deequ.FloatParser, k: nat)
    ensures var full := Main(args, file, parse, None);
      var cut := Main(args, file, parse, Some(k));
      && cut.trace <= full.trace
      && (cut.ending.Crashed? && cut.ending.failure.BackendRejected? ==>
            ExitCode(cut.ending) == 1 && |cut.trace| > 0 && cut.ending.failure.call == cut.trace[|cut.trace| - 1])
      && (!cut.ending.Crashed? || !cut.ending.failure.BackendRejected? ==> cut == full)
      && (k < |BackendCalls(full.trace)| <==> cut.ending.Crashed? && cut.ending.failure.BackendRejected?)
      && (k < |BackendCalls(full.trace)| ==> cut.ending.failure.call == BackendCalls(full.trace)[k])
  {
    ExecuteTruncates(AsWritten, args, file, parse, k);
    ExecuteFailure(AsWritten, args, file, parse, k);
  }

  /** Which call raising cuts a run with either alarm list, and what the run then reports. */
  lemma ExecuteFailure(which: AlarmList, args: Args, file: ViolationsFile, parse: Deequ.FloatParser, k: nat)
    ensures var full := Execute(which, args, file, parse, None);
      var cut := Execute(which, args, file, parse, Some(k));
      && (k < |BackendCalls(full.trace)| <==> cut.ending.Crashed? && cut.ending.failure.BackendRejected?)
      && (k < |BackendCalls(full.trace)| ==> cut.ending.failure.call == BackendCalls(full.trace)[k])
  {
    var sync := SyncCalls(which, args);
    var full, cut := Execute(which, args, file, parse, None), Execute(which, args, file, parse, Some(k));
    var restFull, restCut := AfterSync(args, file, parse, None, |sync|), AfterSync(args, file, parse, Some(k), |sync|);
    ExecuteCut(which, args, file, parse, k);
    AfterSyncFailure(args, file, parse, k, |sync|);
    CutFailure(sync, k, full, cut, restFull, restCut);
  }

  /** The failure argument on its own: the backend calls of a full run are the
      synchronisation followed by those of the rest. */
  lemma CutFailure(sync: seq<Effect>, k: nat, full: Run, cut: Run, restFull: Run, restCut: Run)
    requires forall i :: 0 <= i < |sync| ==> IsDeclaration(sync[i])
    requires full.trace == sync + restFull.trace
    requires k < |sync| ==> cut.ending == Crashed(BackendRejected(sync[k]))
    requires k >= |sync| ==> cut.ending == restCut.ending
    requires |sync| <= k ==>
      (k < |sync| + |BackendCalls(restFull.trace)| <==> restCut.ending.Crashed? && restCut.ending.failure.BackendRejected?)
    requires |sync| <= k < |sync| + |BackendCalls(restFull.trace)| ==>
      restCut.ending.failure.call == BackendCalls(restFull.trace)[k - |sync|]
    ensures k < |BackendCalls(full.trace)| <==> cut.ending.Crashed? && cut.ending.failure.BackendRejected?
    ensures k < |BackendCalls(full.trace)| ==> cut.ending.failure.call == BackendCalls(full.trace)[k]
  {
    BackendCallsAppend(sync, restFull.trace);
    BackendCallsOfCalls(sync);
  }

  /** The part after the synchronisation is cut exactly when the raising call is one of its
      publications. */
  lemma AfterSyncFailure(args: Args, file: ViolationsFile, parse: Deequ.FloatParser, k: nat, before: nat)
    ensures var full := AfterSync(args, file, parse, None, before);
      var cut := AfterSync(args, file, parse, Some(k), before);
      var calls := BackendCalls(full.trace);
      && (before <= k ==> (k < before + |calls| <==> cut.ending.Crashed? && cut.ending.failure.BackendRejected?))
      && (before <= k < before + |calls| ==> cut.ending.failure.call == calls[k - before])
  {
    var checked := [FileChecked(args.violationsFile)];
    var full, cut := AfterSync(args, file, parse, None, before), AfterSync(args, file, parse, Some(k), before);
    if file.Present? && Format(args.framework, file.report, args.pipelineName, parse).Success? {
      var pubs := PublishCalls(Format(args.framework, file.report, args.pipelineName, parse).value, args.metricsNamespace);
      var sent := Sent(pubs, before, Some(k));
      assert full.trace == checked + pubs;
      assert FailsWithin(pubs, before, Some(k)) ==> cut.ending == Crashed(BackendRejected(sent[|sent| - 1]));
      assert !FailsWithin(pubs, before, Some(k)) ==> cut.ending == Completed;
      SentFailure(args.violationsFile, pubs, before, k);
    } else {
      assert full.trace == checked;
      assert !cut.ending.Crashed? || !cut.ending.failure.BackendRejected?;
    }
  }

  /** The publications are the backend calls after the file check; a raising one is the
      last call sent. */
  lemma SentFailure(path: string, pubs: seq<Effect>, before: nat, k: nat)
    requires forall i :: 0 <= i < |pubs| ==> pubs[i].Published?
    ensures BackendCalls([FileChecked(path)] + pubs) == pubs
    ensures FailsWithin(pubs, before, Some(k)) <==> before <= k < before + |pubs|
    ensures FailsWithin(pubs, before, Some(k)) ==>
      var sent := Sent(pubs, before, Some(k)); sent[|sent| - 1] == pubs[k - before]
  {
    CheckThenCalls(path, pubs);
    SentLast(pubs, before, k);
  }

  lemma CheckThenCalls(path: string, calls: seq<Effect>)
    requires forall i :: 0 <= i < |calls| ==> !calls[i].FileChecked?
    ensures BackendCalls([FileChecked(path)] + calls) == calls
  {
    BackendCallsAppend([FileChecked(path)], calls);
    BackendCallsOfCalls(calls);
  }

  lemma SentLast(calls: seq<Effect>, before: nat, k: nat)
    ensures FailsWithin(calls, before, Some(k)) <==> before <= k < before + |calls|
    ensures FailsWithin(calls, before, Some(k)) ==>
      var sent := Sent(calls, before, Some(k)); sent[|sent| - 1] == calls[k - before]
  {
  }

  /** The same for either alarm list. */
  lemma ExecuteTruncates(which: AlarmList, args: Args, file: ViolationsFile, parse: Deequ.FloatParser, k: nat)
    ensures var full := Execute(which, args, file, parse, None);
      var cut := Execute(which, args, file, parse, Some(k));
      && cut.trace <= full.trace
      && (cut.ending.Crashed? && cut.ending.failure.BackendRejected? ==>
            ExitCode(cut.ending) == 1 && |cut.trace| > 0 && cut.ending.failure.call == cut.trace[|cut.trace| - 1])
      && (!cut.ending.Crashed? || !cut.ending.failure.BackendRejected? ==>
            cut.trace == full.trace && cut.ending == full.ending)
  {
    var sync := SyncCalls(which, args);
    var full, cut := Execute(which, args, file, parse, None), Execute(which, args, file, parse, Some(k));
    var restFull, restCut := AfterSync(args, file, parse, None, |sync|), AfterSync(args, file, parse, Some(k), |sync|);
    ExecuteCut(which, args, file, parse, k);
    AfterSyncTruncates(args, file, parse, k, |sync|);
    CutRun(sync, k, full, cut, restFull, restCut);
  }

  /** The undisturbed run and the run cut at call `k`, in terms of the synchronisation and
      the rest of the run. */
  lemma ExecuteCut(which: AlarmList, args: Args, file: ViolationsFile, parse: Deequ.FloatParser, k: nat)
    ensures var sync, full, cut := SyncCalls(which, args), Execute(which, args, file, parse, None),
                                   Execute(which, args, file, parse, Some(k));
      var restFull, restCut := AfterSync(args, file, parse, None, |sync|), AfterSync(args, file, parse, Some(k), |sync|);
      && full.trace == sync + restFull.trace && full.ending == restFull.ending
      && (k < |sync| ==> cut.trace == sync[..k + 1] && cut.ending == Crashed(BackendRejected(sync[k])))
      && (k >= |sync| ==> cut.trace == sync + restCut.trace && cut.ending == restCut.ending)
  {
    ExecuteSplit(which, args, file, parse, None);
    ExecuteSplit(which, args, file, parse, Some(k));
  }

  /** The truncation argument on its own: a run cut inside the synchronisation or inside
      the rest is a prefix of the full run that ends with the call that raised. */
  lemma CutRun(sync: seq<Effect>, k: nat, full: Run, cut: Run, restFull: Run, restCut: Run)
    requires full.trace == sync + restFull.trace && full.ending == restFull.ending
    requires k < |sync| ==> cut.trace == sync[..k + 1] && cut.ending == Crashed(BackendRejected(sync[k]))
    requires k >= |sync| ==> cut.trace == sync + restCut.trace && cut.ending == restCut.ending
    requires restCut.trace <= restFull.trace
    requires restCut.ending.Crashed? && restCut.ending.failure.BackendRejected? ==>
      |restCut.trace| > 0 && restCut.ending.failure.call == restCut.trace[|restCut.trace| - 1]
    requires !restCut.ending.Crashed? || !restCut.ending.failure.BackendRejected? ==>
      restCut.trace == restFull.trace && restCut.ending == restFull.ending
    ensures cut.trace <= full.trace
    ensures cut.ending.Crashed? && cut.ending.failure.BackendRejected? ==>
      ExitCode(cut.ending) == 1 && |cut.trace| > 0 && cut.ending.failure.call == cut.trace[|cut.trace| - 1]
    ensures !cut.ending.Crashed? || !cut.ending.failure.BackendRejected? ==>
      cut.trace == full.trace && cut.ending == full.ending
  {
    if k >= |sync| {
      assert sync + restFull.trace == (sync + restCut.trace) + restFull.trace[|restCut.trace|..];
    }
  }

  /** How the part after the synchronisation ends, by the state of the file. */
  lemma AfterSyncEnding(args: Args, file: ViolationsFile, parse: Deequ.FloatParser, failAt: Option<nat>, before: nat)
    ensures var r := AfterSync(args, file, parse, failAt, before);
      var checked := [FileChecked(args.violationsFile)];
      && (file == Absent ==> r.trace == checked && r.ending == NoViolationsFile)
      && (file.Present? && Deequ.Interpret(file.report, args.pipelineName, parse).Failure? ==>
            r.trace == checked && r.ending == Crashed(BadViolation(Deequ.Interpret(file.report, args.pipelineName, parse).error)))
      && (file.Present? && Deequ.Interpret(file.report, args.pipelineName, parse).Success? && failAt.None? ==>
            r.ending == Completed)
  {
  }

  /** After the synchronisation a run checks for the file once and then only publishes. */
  lemma AfterSyncShape(args: Args, file: ViolationsFile, parse: Deequ.FloatParser, failAt: Option<nat>, before: nat)
    ensures var t := AfterSync(args, file, parse, failAt, before).trace;
      && |t| >= 1 && t[0] == FileChecked(args.violationsFile)
      && forall i :: 1 <= i < |t| ==> t[i].Published?
  {
  }

  /** The part after the synchronisation, cut by a raising publication, is a prefix of the
      undisturbed one that ends with the call that raised. */
  lemma AfterSyncTruncates(args: Args, file: ViolationsFile, parse: Deequ.FloatParser, k: nat, before: nat)
    ensures var full := AfterSync(args, file, parse, None, before);
      var cut := AfterSync(args, file, parse, Some(k), before);
      && cut.trace <= full.trace
      && (cut.ending.Crashed? && cut.ending.failure.BackendRejected? ==>
            |cut.trace| > 0 && cut.ending.failure.call == cut.trace[|cut.trace| - 1])
      && (!cut.ending.Crashed? || !cut.ending.failure.BackendRejected? ==> cut.trace == full.trace && cut.ending == full.ending)
  {
    if file.Present? {
      var f := Format(args.framework, file.report, args.pipelineName, parse);
      if f.Success? {
        SentTruncates([FileChecked(args.violationsFile)], PublishCalls(f.value, args.metricsNamespace), before, k);
      }
    }
  }

  /** Publications cut at a raising call are a prefix of all of them, ending with that
      call. */
  lemma SentTruncates(checked: seq<Effect>, pubs: seq<Effect>, before: nat, k: nat)
    ensures var cut := Sent(pubs, before, Some(k));
      && checked + cut <= checked + pubs
      && (FailsWithin(pubs, before, Some(k)) ==> |cut| > 0 && (checked + cut)[|checked + cut| - 1] == cut[|cut| - 1])
      && (!FailsWithin(pubs, before, Some(k)) ==> cut == pubs)
  {
    var cut := Sent(pubs, before, Some(k));
    if FailsWithin(pubs, before, Some(k)) {
      assert checked + pubs == (checked + cut) + pubs[|cut|..];
    }
  }

  /** The two alarm lists declare the same alarms except the drift alarm. */
  lemma SyncDiffersOnlyInDriftAlarm(args: Args)
    ensures var a, c := SyncCalls(AsWritten, args), SyncCalls(Corrected, args);
      |a| == |c| && forall i :: 0 <= i < |a| && i != 6 ==> a[i] == c[i]
  {
    var a, c := SyncCalls(AsWritten, args), SyncCalls(Corrected, args);
    if args.updateRules == "True" {
      CloudWatch.AlarmListsAgree(args.metricsNamespace, args.pipelineName, args.snsNotificationArn);
      SameExceptDrift(RuleEffects(args), Alarms(AsWritten, args), Alarms(Corrected, args));
    }
  }

  /** Declarations whose alarm lists differ only in the third alarm differ only at the
      seventh effect. */
  lemma SameExceptDrift(rules: seq<Effect>, a: seq<CloudWatch.AlarmRequest>, c: seq<CloudWatch.AlarmRequest>)
    requires |rules| == 4 && |a| == |c| == 6
    requires forall i :: 0 <= i < 6 && i != 2 ==> a[i] == c[i]
    ensures var sa, sc := rules + AlarmEffects(a), rules + AlarmEffects(c);
      |sa| == |sc| && forall i :: 0 <= i < |sa| && i != 6 ==> sa[i] == sc[i]
  {
    var sa, sc := rules + AlarmEffects(a), rules + AlarmEffects(c);
    forall i | 4 <= i < 10 && i != 6 ensures sa[i] == sc[i] {
      assert sa[i] == AlarmEffects(a)[i - 4] && sc[i] == AlarmEffects(c)[i - 4];
    }
  }

  /** The corrected run differs from the script's own only at the seventh effect, the
      drift alarm when the rules are updated; the publications and the exit status are
      the same. */
  lemma CorrectionKeepsRun(args: Args, file: ViolationsFile, parse: Deequ.FloatParser, failAt: Option<nat>)
    ensures var a, c := Main(args, file, parse, failAt), MainCorrected(args, file, parse, failAt);
      && |a.trace| == |c.trace|
      && (forall i :: 0 <= i < |a.trace| && i != 6 ==> a.trace[i] == c.trace[i])
      && ExitCode(a.ending) == ExitCode(c.ending)
      && Publications(a.trace) == Publications(c.trace)
  {
    var sa, sc := SyncCalls(AsWritten, args), SyncCalls(Corrected, args);
    SyncDiffersOnlyInDriftAlarm(args);
    ExecuteSplit(AsWritten, args, file, parse, failAt);
    ExecuteSplit(Corrected, args, file, parse, failAt);
    CompareRuns(sa, sc, failAt, Execute(AsWritten, args, file, parse, failAt), Execute(Corrected, args, file, parse, failAt),
                AfterSync(args, file, parse, failAt, |sa|));
  }

  /** That seventh effect: as written the run declares the drift alarm on
      `baseline_drift_check`, corrected on `feature_baseline_drift`. */
  lemma CorrectionDriftAlarm(args: Args, file: ViolationsFile, parse: Deequ.FloatParser, failAt: Option<nat>)
    ensures var a, c := Main(args, file, parse, failAt), MainCorrected(args, file, parse, failAt);
      args.updateRules == "True" && |a.trace| > 6 ==>
        && a.trace[6].AlarmDeclared? && a.trace[6].alarm.metricName == Deequ.DriftCheck
        && |c.trace| > 6 && c.trace[6].AlarmDeclared? && c.trace[6].alarm.metricName == Deequ.DriftMetric
  {
    CorrectionKeepsRun(args, file, parse, failAt);
    if args.updateRules == "True" {
      SyncDeclarations(AsWritten, args);
      SyncDeclarations(Corrected, args);
      SeventhEffect(AsWritten, args, file, parse, failAt);
      SeventhEffect(Corrected, args, file, parse, failAt);
    }
  }

  /** A run long enough to reach the seventh effect performs the drift alarm declaration
      there. */
  lemma SeventhEffect(which: AlarmList, args: Args, file: ViolationsFile, parse: Deequ.FloatParser, failAt: Option<nat>)
    requires args.updateRules == "True"
    ensures var t, s := Execute(which, args, file, parse, failAt).trace, SyncCalls(which, args);
      |t| > 6 ==> t[6] == s[6]
  {
    var s := SyncCalls(which, args);
    ExecuteSplit(which, args, file, parse, failAt);
    PrefixAt(s, Execute(which, args, file, parse, failAt).trace, FailsWithin(s, 0, failAt),
             if failAt.Some? then failAt.value + 1 else 0, AfterSync(args, file, parse, failAt, |s|).trace);
  }

  /** A trace that starts with `s`, or is a prefix of it, agrees with it where both are
      defined. */
  lemma PrefixAt(s: seq<Effect>, t: seq<Effect>, cutShort: bool, n: nat, rest: seq<Effect>)
    requires cutShort ==> n <= |s| && t == s[..n]
    requires !cutShort ==> t == s + rest
    ensures forall i :: 0 <= i < |t| && i < |s| ==> t[i] == s[i]
  {
  }

  /** The comparison on its own: two runs whose declarations differ only at the drift
      alarm, cut at the same call or followed by the same rest. */
  lemma CompareRuns(sa: seq<Effect>, sc: seq<Effect>, failAt: Option<nat>, a: Run, c: Run, rest: Run)
    requires |sa| == |sc|
    requires forall i :: 0 <= i < |sa| ==> IsDeclaration(sa[i]) && IsDeclaration(sc[i])
    requires forall i :: 0 <= i < |sa| && i != 6 ==> sa[i] == sc[i]
    requires FailsWithin(sa, 0, failAt) ==>
      a.trace == sa[..failAt.value + 1] && a.ending == Crashed(BackendRejected(sa[failAt.value]))
    requires FailsWithin(sc, 0, failAt) ==>
      c.trace == sc[..failAt.value + 1] && c.ending == Crashed(BackendRejected(sc[failAt.value]))
    requires !FailsWithin(sa, 0, failAt) ==> a.trace == sa + rest.trace && a.ending == rest.ending
    requires !FailsWithin(sc, 0, failAt) ==> c.trace == sc + rest.trace && c.ending == rest.ending
    ensures |a.trace| == |c.trace|
    ensures forall i :: 0 <= i < |a.trace| && i != 6 ==> a.trace[i] == c.trace[i]
    ensures ExitCode(a.ending) == ExitCode(c.ending)
    ensures Publications(a.trace) == Publications(c.trace)
    ensures |a.trace| > 6 && |sa| > 6 ==> a.trace[6] == sa[6] && c.trace[6] == sc[6]
  {
    if FailsWithin(sa, 0, failAt) {
      SameUpTo(sa, sc, failAt.value + 1);
    } else {
      SameAfter(sa, sc, rest.trace);
    }
  }

  /** What a run published, read off from the way it ended. */
  lemma RunOutcome(which: AlarmList, args: Args, file: ViolationsFile, parse: Deequ.FloatParser, failAt: Option<nat>)
    ensures var r := Execute(which, args, file, parse, failAt);
      && (r.ending == NoViolationsFile ==> file == Absent && Publications(r.trace) == [])
      && (r.ending == Completed ==>
            && file.Present?
            && Deequ.Interpret(file.report, args.pipelineName, parse).Success?
            && Publications(r.trace)
               == CloudWatch.PutCloudwatchMetric(Deequ.Interpret(file.report, args.pipelineName, parse).value,
                                                 args.metricsNamespace))
  {
    var sync := SyncCalls(which, args);
    var r := Execute(which, args, file, parse, failAt);
    ExecuteSplit(which, args, file, parse, failAt);
    if !FailsWithin(sync, 0, failAt) {
      var rest := AfterSync(args, file, parse, failAt, |sync|);
      AfterSyncOutcome(args, file, parse, failAt, |sync|);
      if rest.ending == Completed {
        var metrics := Deequ.Interpret(file.report, args.pipelineName, parse).value;
        PublishedAfter(sync, r.trace, rest.trace, args.violationsFile, PublishCalls(metrics, args.metricsNamespace));
        PublicationsOfPublishCalls(metrics, args.metricsNamespace);
      } else if rest.ending == NoViolationsFile {
        PublishedAfter(sync, r.trace, rest.trace, args.violationsFile, []);
      }
    }
  }

  /** Declarations, the file check and then `pubs` publish what `pubs` publishes. */
  lemma PublishedAfter(sync: seq<Effect>, trace: seq<Effect>, rest: seq<Effect>, path: string, pubs: seq<Effect>)
    requires forall i :: 0 <= i < |sync| ==> IsDeclaration(sync[i])
    requires trace == sync + rest
    requires rest == [FileChecked(path)] + pubs
    ensures Publications(trace) == Publications(pubs)
  {
    DeclarationsThen(sync, rest);
    assert rest[1..] == pubs;
  }

  /** The part after the synchronisation, by the way it ends: without a file it only
      checked for it; completed, it published every interpreted metric. */
  lemma AfterSyncOutcome(args: Args, file: ViolationsFile, parse: Deequ.FloatParser, failAt: Option<nat>, before: nat)
    ensures var r := AfterSync(args, file, parse, failAt, before);
      var checked := [FileChecked(args.violationsFile)];
      && (r.ending == NoViolationsFile ==> file == Absent && r.trace == checked)
      && (r.ending == Completed ==>
            && file.Present?
            && Deequ.Interpret(file.report, args.pipelineName, parse).Success?
            && r.trace == checked + PublishCalls(Deequ.Interpret(file.report, args.pipelineName, parse).value,
                                                 args.metricsNamespace))
  {
  }

  /** Declarations followed by a file check publish what follows the check. */
  lemma DeclarationsThen(sync: seq<Effect>, rest: seq<Effect>)
    requires forall i :: 0 <= i < |sync| ==> IsDeclaration(sync[i])
    requires |rest| >= 1 && !rest[0].Published?
    ensures Publications(sync + rest) == Publications(rest[1..])
  {
    NoPublications(sync);
    PublicationsAppend(sync, rest);
    assert rest == [rest[0]] + rest[1..];
    PublicationsAppend([rest[0]], rest[1..]);
  }

  /** A run is the synchronisation cut at the call that raises, or the whole
      synchronisation followed by the rest of the run. */
  lemma ExecuteSplit(which: AlarmList, args: Args, file: ViolationsFile, parse: Deequ.FloatParser,
                     failAt: Option<nat>)
    ensures var r, s := Execute(which, args, file, parse, failAt), SyncCalls(which, args);
      && (FailsWithin(s, 0, failAt) ==>
            r.trace == s[..failAt.value + 1] && r.ending == Crashed(BackendRejected(s[failAt.value])))
      && (!FailsWithin(s, 0, failAt) ==>
            var rest := AfterSync(args, file, parse, failAt, |s|);
            r.trace == s + rest.trace && r.ending == rest.ending)
  {
  }

  /** Two declaration prefixes that agree except at the drift alarm, cut at the same call. */
  lemma SameUpTo(sa: seq<Effect>, sc: seq<Effect>, n: nat)
    requires |sa| == |sc| && n <= |sa|
    requires forall i :: 0 <= i < |sa| ==> IsDeclaration(sa[i]) && IsDeclaration(sc[i])
    requires forall i :: 0 <= i < |sa| && i != 6 ==> sa[i] == sc[i]
    ensures forall i :: 0 <= i < n && i != 6 ==> sa[..n][i] == sc[..n][i]
    ensures Publications(sa[..n]) == [] && Publications(sc[..n]) == []
  {
    NoPublications(sa[..n]);
    NoPublications(sc[..n]);
  }

  /** Two declaration prefixes that agree except at the drift alarm, followed by the same
      effects. */
  lemma SameAfter(sa: seq<Effect>, sc: seq<Effect>, rest: seq<Effect>)
    requires |sa| == |sc|
    requires forall i :: 0 <= i < |sa| ==> IsDeclaration(sa[i]) && IsDeclaration(sc[i])
    requires forall i :: 0 <= i < |sa| && i != 6 ==> sa[i] == sc[i]
    ensures forall i :: 0 <= i < |sa + rest| && i != 6 ==> (sa + rest)[i] == (sc + rest)[i]
    ensures Publications(sa + rest) == Publications(sc + rest)
  {
    forall i | 0 <= i < |sa + rest| && i != 6 ensures (sa + rest)[i] == (sc + rest)[i] {
      if i >= |sa| {
        assert (sa + rest)[i] == rest[i - |sa|] == (sc + rest)[i];
      }
    }
    NoPublications(sa);
    NoPublications(sc);
    PublicationsAppend(sa, rest);
    PublicationsAppend(sc, rest);
  }

  /** Declarations publish nothing. */
  lemma NoPublications(s: seq<Effect>)
    requires forall i :: 0 <= i < |s| ==> IsDeclaration(s[i])
    ensures Publications(s) == []
  {
    assert forall i :: 0 <= i < |s| ==> !s[i].Published?;
  }

  // ---------------------------------------------------------------------------
  // Helpers about `Publications`.
  // ---------------------------------------------------------------------------

  lemma {:induction false} PublicationsAppend(a: seq<Effect>, b: seq<Effect>)
    ensures Publications(a + b) == Publications(a) + Publications(b)
    decreases |a|
  {
    if |a| == 0 {
      assert a + b == b;
    } else {
      assert (a + b)[0] == a[0];
      assert (a + b)[1..] == a[1..] + b;
      PublicationsAppend(a[1..], b);
    }
  }

  lemma {:induction false} BackendCallsAppend(a: seq<Effect>, b: seq<Effect>)
    ensures BackendCalls(a + b) == BackendCalls(a) + BackendCalls(b)
    decreases |a|
  {
    if |a| == 0 {
      assert a + b == b;
    } else {
      assert (a + b)[0] == a[0];
      assert (a + b)[1..] == a[1..] + b;
      BackendCallsAppend(a[1..], b);
    }
  }

  /** A trace without the file check is all backend calls. */
  lemma {:induction false} BackendCallsOfCalls(calls: seq<Effect>)
    requires forall i :: 0 <= i < |calls| ==> !calls[i].FileChecked?
    ensures BackendCalls(calls) == calls
    decreases |calls|
  {
    if |calls| > 0 {
      BackendCallsOfCalls(calls[1..]);
    }
  }

  lemma {:induction false} PublicationsOfPublished(reqs: seq<CloudWatch.PutMetricDataRequest>)
    ensures Publications(seq(|reqs|, i requires 0 <= i < |reqs| => Published(reqs[i]))) == reqs
    decreases |reqs|
  {
    var t := seq(|reqs|, i requires 0 <= i < |reqs| => Published(reqs[i]));
    if |reqs| > 0 {
      assert t[1..] == seq(|reqs[1..]|, i requires 0 <= i < |reqs[1..]| => Published(reqs[1..][i]));
      PublicationsOfPublished(reqs[1..]);
      assert reqs == [reqs[0]] + reqs[1..];
    }
  }

  lemma PublicationsOfPublishCalls(metrics: seq<Deequ.Metric>, namespace: string)
    ensures Publications(PublishCalls(metrics, namespace)) == CloudWatch.PutCloudwatchMetric(metrics, namespace)
  {
    PublicationsOfPublished(CloudWatch.PutCloudwatchMetric(metrics, namespace));
  }
}

=== FILE: eventbridge.dfy ===
/**
 * The event rules that route pipeline execution status changes to notification
 * topics: two rules, each followed by the declaration of its one target.
 */
module EventBridge {
  import Upserts

  /** The event pattern of a rule on the status changes of one pipeline, given by the two
      values substituted into the pattern text: the pipeline ARN and the JSON array of
      the states. */
  datatype StatusPattern = StatusPattern(pipelineArn: string, status: string)

  datatype PutRuleRequest = PutRuleRequest(name: string, eventPattern: StatusPattern)

  /** How an event is rewritten before delivery: JSON paths bound to placeholder names,
      and the text the placeholders are substituted into. */
  datatype InputTransformer = InputTransformer(inputPathsMap: seq<(string, string)>, inputTemplate: string)

  datatype Target = Target(id: string, arn: string, inputTransformer: InputTransformer)

  datatype PutTargetsRequest = PutTargetsRequest(rule: string, targets: seq<Target>)

  /** One call to the event backend. */
  datatype RuleCall = PutRule(rule: PutRuleRequest) | PutTargets(request: PutTargetsRequest)

  const TargetId: string := "target-1"
  const FailedStatus: string := "[\"Failed\"]"
  const ExecutingOrFailedStatus: string := "[\"Executing\", \"Failed\"]"

  // The event pattern text around the two substituted values, including its line breaks
  // and indentation.
  const PatternHead: string :=
    "\n        {\n"
    + "            \"detail-type\": [\"SageMaker Model Building Pipeline Execution Status Change\"],\n"
    + "            \"source\": [\"aws.sagemaker\"],\n"
    + "            \"detail\": {\n"
    + "                 \"pipelineArn\": [\""
  const PatternMiddle: string :=
    "\"]\n"
    + "                 ,\n"
    + "                 \"currentPipelineExecutionStatus\": "
  const PatternTail: string :=
    "\n                }\n        }\n    "

  const PathsMap: seq<(string, string)> := [
    ("pipeline", "$.detail.pipelineArn"),
    ("pipelineExecution", "$.detail.pipelineExecutionArn"),
    ("state", "$.detail.currentPipelineExecutionStatus")]

  /** How a template names the value bound to `key`. */
  function Placeholder(key: string): string {
    "<" + key + ">"
  }

  /** The opening of the JSON member named `key`. */
  function KeyText(key: string): string {
    "\"" + key + "\": "
  }

  const CustomMessageTail: string :=
    "\"customMessage\" : \"please login to the sagemaker studio for details\"}"

  /** The message template: each placeholder is the value of the member of the same name
      (the pipeline bare, the state and the execution quoted), then a fixed message. */
  const NotificationTemplate: string :=
    "{" + (KeyText("pipeline") + Placeholder("pipeline")) + ","
    + (KeyText("state") + "\"" + Placeholder("state")) + "\","
    + (KeyText("pipelineExecution") + "\"" + Placeholder("pipelineExecution")) + "\", "
    + CustomMessageTail

  /** The text sent as the rule's event pattern. */
  function PatternText(p: StatusPattern): string {
    PatternHead + p.pipelineArn + PatternMiddle + p.status + PatternTail
  }

  /** `add_pipeline_rule`: the rule `name` on the status changes of `pipeline` to one of
      the states listed in `status`. */
  function AddPipelineRule(name: string, status: string, pipeline: string): (r: PutRuleRequest)
    ensures r.name == name
  {
    PutRuleRequest(name, StatusPattern(pipeline, status))
  }

  /** The pattern text of a rule holds the pipeline ARN and the status list verbatim at
      fixed offsets after the fixed head, so rules of different pipelines or state lists
      have different patterns. */
  lemma PipelineRulePattern(name: string, status: string, pipeline: string)
    ensures var p := PatternText(AddPipelineRule(name, status, pipeline).eventPattern);
      var a := |PatternHead|;
      var s := a + |pipeline| + |PatternMiddle|;
      && |p| == s + |status| + |PatternTail|
      && p[..a] == PatternHead
      && p[a..a + |pipeline|] == pipeline
      && p[s..s + |status|] == status
  {
    var p := PatternText(AddPipelineRule(name, status, pipeline).eventPattern);
    var a := |PatternHead|;
    assert p == PatternHead + pipeline + PatternMiddle + status + PatternTail;
    assert p[a..a + |pipeline|] == pipeline;
  }

  /** Rule patterns with the same status list have the same text only for the same
      pipeline. */
  lemma PatternTextInjective(p1: StatusPattern, p2: StatusPattern)
    requires p1.status == p2.status
    requires PatternText(p1) == PatternText(p2)
    ensures p1 == p2
  {
    PipelineRulePattern("", p1.status, p1.pipelineArn);
    PipelineRulePattern("", p2.status, p2.pipelineArn);
  }

  /** `eventbridge_add_notification_targets`: one target delivering to `snsArn`. */
  function NotificationTargets(snsArn: string, id: string, name: string): (r: PutTargetsRequest)
    ensures r.rule == name && |r.targets| == 1
    ensures r.targets[0].id == id && r.targets[0].arn == snsArn
    // the event's pipeline, execution and state are bound to the template's placeholders
    ensures (set p | p in r.targets[0].inputTransformer.inputPathsMap :: p.0) == {"pipeline", "pipelineExecution", "state"}
    // each placeholder is bound to its field of the status-change event
    ensures r.targets[0].inputTransformer.inputPathsMap == [
      ("pipeline", "$.detail.pipelineArn"),
      ("pipelineExecution", "$.detail.pipelineExecutionArn"),
      ("state", "$.detail.currentPipelineExecutionStatus")]
  {
    PutTargetsRequest(name, [Target(id, snsArn, InputTransformer(PathsMap, NotificationTemplate))])
  }

  /** `pat` occurs somewhere in `text`. */
  ghost predicate Occurs(pat: string, text: string) {
    exists i :: OccursAt(pat, text, i)
  }

  predicate OccursAt(pat: string, text: string, i: int) {
    0 <= i <= |text| - |pat| && text[i..i + |pat|] == pat
  }

  /** Every placeholder the transformer binds, written `<name>`, occurs in its message
      template, so each bound event field reaches the notification. */
  lemma NotificationPlaceholdersUsed(snsArn: string, id: string, name: string)
    ensures var t := NotificationTargets(snsArn, id, name).targets[0].inputTransformer;
      forall p :: p in t.inputPathsMap ==> Occurs(Placeholder(p.0), t.inputTemplate)
  {
    var t := NotificationTargets(snsArn, id, name).targets[0].inputTransformer;
    NotificationFieldsKeyed(snsArn, id, name);
    forall p | p in t.inputPathsMap ensures Occurs(Placeholder(p.0), t.inputTemplate) {
      if Occurs(KeyText(p.0) + Placeholder(p.0), t.inputTemplate) {
        OccursEnd(KeyText(p.0), Placeholder(p.0));
        OccursTrans(Placeholder(p.0), KeyText(p.0) + Placeholder(p.0), t.inputTemplate);
      } else {
        OccursEnd(KeyText(p.0) + "\"", Placeholder(p.0));
        OccursTrans(Placeholder(p.0), KeyText(p.0) + "\"" + Placeholder(p.0), t.inputTemplate);
      }
    }
  }

  /** Each bound value is written, bare or quoted, as the value of the template member
      named after its key. */
  lemma NotificationFieldsKeyed(snsArn: string, id: string, name: string)
    ensures var t := NotificationTargets(snsArn, id, name).targets[0].inputTransformer;
      && t.inputTemplate == NotificationTemplate
      && forall p :: p in t.inputPathsMap ==>
        || Occurs(KeyText(p.0) + Placeholder(p.0), t.inputTemplate)
        || Occurs(KeyText(p.0) + "\"" + Placeholder(p.0), t.inputTemplate)
  {
    ThreeOccur("{", KeyText("pipeline") + Placeholder("pipeline"), ",",
               KeyText("state") + "\"" + Placeholder("state"), "\",",
               KeyText("pipelineExecution") + "\"" + Placeholder("pipelineExecution"), "\", ",
               CustomMessageTail);
  }

  lemma OccursEnd(a: string, x: string)
    ensures Occurs(x, a + x)
  {
    assert (a + x)[|a|..|a| + |x|] == x;
    assert OccursAt(x, a + x, |a|);
  }

  lemma OccursTrans(p: string, q: string, t: string)
    requires Occurs(p, q) && Occurs(q, t)
    ensures Occurs(p, t)
  {
    var j :| OccursAt(p, q, j);
    var i :| OccursAt(q, t, i);
    assert t[i + j..i + j + |p|] == q[j..j + |p|] by {
      var a, b := t[i + j..i + j + |p|], q[j..j + |p|];
      forall k | 0 <= k < |p| ensures a[k] == b[k] {
        assert t[i..i + |q|][j + k] == q[j + k];
      }
    }
    assert OccursAt(p, t, i + j);
  }

  /** Each of three pieces occurs in a text written around them. */
  lemma ThreeOccur(a: string, x: string, b: string, y: string, c: string, z: string, d: string, e: string)
    ensures var t := a + x + b + y + c + z + d + e;
      Occurs(x, t) && Occurs(y, t) && Occurs(z, t)
  {
    var t := a + x + b + y + c + z + d + e;
    assert t == (a + x) + (b + y + c + z + d + e);
    OccursBetween(a, x, b + y + c + z + d + e);
    assert t == (a + x + b) + y + (c + z + d + e);
    OccursBetween(a + x + b, y, c + z + d + e);
    assert t == (a + x + b + y + c) + z + (d + e);
    OccursBetween(a + x + b + y + c, z, d + e);
  }

  lemma OccursBetween(a: string, x: string, b: string)
    ensures OccursAt(x, a + x + b, |a|)
  {
    assert (a + x + b)[|a|..|a| + |x|] == x;
  }

  /** `update_eventbridge_rules`: the failure rule and its target, then the
      executing-or-failed rule and its target. */
  function UpdateEventbridgeRules(snsArn: string, pipelineName: string, snsCustomArn: string, pipelineArn: string)
    : (r: seq<RuleCall>)
    ensures |r| == 4
    ensures r[0] == PutRule(PutRuleRequest(pipelineName + "-failed", StatusPattern(pipelineArn, FailedStatus)))
    ensures r[2] == PutRule(PutRuleRequest(pipelineName + "-multi-state", StatusPattern(pipelineArn, ExecutingOrFailedStatus)))
    ensures r[1].PutTargets? && r[1].request.rule == pipelineName + "-failed"
    ensures r[3].PutTargets? && r[3].request.rule == pipelineName + "-multi-state"
    ensures |r[1].request.targets| == 1 && r[1].request.targets[0].arn == snsArn
    ensures |r[3].request.targets| == 1 && r[3].request.targets[0].arn == snsCustomArn
    ensures r[1].request.targets[0].id == "target-1" && r[3].request.targets[0].id == "target-1"
    ensures r[1].request.targets[0].inputTransformer == r[3].request.targets[0].inputTransformer
    // both targets carry the notification transformer
    ensures r[1] == PutTargets(NotificationTargets(snsArn, TargetId, pipelineName + "-failed"))
    ensures r[3] == PutTargets(NotificationTargets(snsCustomArn, TargetId, pipelineName + "-multi-state"))
  {
    var failed := pipelineName + "-failed";
    var multi := pipelineName + "-multi-state";
    [ PutRule(AddPipelineRule(failed, FailedStatus, pipelineArn)),
      PutTargets(NotificationTargets(snsArn, TargetId, failed)),
      PutRule(AddPipelineRule(multi, ExecutingOrFailedStatus, pipelineArn)),
      PutTargets(NotificationTargets(snsCustomArn, TargetId, multi)) ]
  }

  // ---------------------------------------------------------------------------
  // Re-running the synchronisation.
  // ---------------------------------------------------------------------------

  /** The rule declarations among the calls, in order. */
  function RuleDeclarations(calls: seq<RuleCall>): (r: seq<PutRuleRequest>)
    ensures |r| <= |calls|
    decreases |calls|
  {
    if |calls| == 0 then []
    else (if calls[0].PutRule? then [calls[0].rule] else []) + RuleDeclarations(calls[1..])
  }

  /** The target declarations among the calls, in order. */
  function TargetDeclarations(calls: seq<RuleCall>): (r: seq<PutTargetsRequest>)
    ensures |r| <= |calls|
    decreases |calls|
  {
    if |calls| == 0 then []
    else (if calls[0].PutTargets? then [calls[0].request] else []) + TargetDeclarations(calls[1..])
  }

  /** One synchronisation leaves exactly the two rule names of the pipeline declared, each
      with its target, and a second one changes nothing in either store. */
  lemma RuleSyncIdempotent(rules: map<string, PutRuleRequest>, targets: map<string, PutTargetsRequest>,
                           snsArn: string, pipelineName: string, snsCustomArn: string, pipelineArn: string)
    ensures var calls := UpdateEventbridgeRules(snsArn, pipelineName, snsCustomArn, pipelineArn);
      var rs := RuleDeclarations(calls);
      var ts := TargetDeclarations(calls);
      var rules1 := Upserts.Declare(rules, rs, (r: PutRuleRequest) => r.name);
      var targets1 := Upserts.Declare(targets, ts, (t: PutTargetsRequest) => t.rule);
      && rules1.Keys == rules.Keys + {pipelineName + "-failed", pipelineName + "-multi-state"}
      && targets1.Keys == targets.Keys + {pipelineName + "-failed", pipelineName + "-multi-state"}
      && pipelineName + "-failed" != pipelineName + "-multi-state"
      && Upserts.Declare(rules1, rs, (r: PutRuleRequest) => r.name) == rules1
      && Upserts.Declare(targets1, ts, (t: PutTargetsRequest) => t.rule) == targets1
  {
    var calls := UpdateEventbridgeRules(snsArn, pipelineName, snsCustomArn, pipelineArn);
    var rs := RuleDeclarations(calls);
    var ts := TargetDeclarations(calls);
    var failed := pipelineName + "-failed";
    var multi := pipelineName + "-multi-state";
    assert calls[3..][1..] == [];
    assert calls[2..][1..] == calls[3..];
    assert calls[1..][1..] == calls[2..];
    assert RuleDeclarations(calls[3..]) == [] + RuleDeclarations(calls[3..][1..]) == [];
    assert RuleDeclarations(calls[2..]) == [calls[2].rule] + RuleDeclarations(calls[3..]) == [calls[2].rule];
    assert RuleDeclarations(calls[1..]) == [] + RuleDeclarations(calls[2..]) == [calls[2].rule];
    assert rs == [calls[0].rule] + [calls[2].rule] == [calls[0].rule, calls[2].rule];
    assert TargetDeclarations(calls[3..]) == [calls[3].request] + TargetDeclarations(calls[3..][1..]) == [calls[3].request];
    assert TargetDeclarations(calls[2..]) == [] + TargetDeclarations(calls[3..]) == [calls[3].request];
    assert TargetDeclarations(calls[1..]) == [calls[1].request] + TargetDeclarations(calls[2..]);
    assert ts == [] + TargetDeclarations(calls[1..]) == [calls[1].request, calls[3].request];
    Upserts.NamesOfTwo(calls[0].rule, calls[2].rule, (r: PutRuleRequest) => r.name);
    Upserts.NamesOfTwo(calls[1].request, calls[3].request, (t: PutTargetsRequest) => t.rule);
    assert |failed| != |multi|;
    Upserts.DeclareTwice(rules, rs, (r: PutRuleRequest) => r.name);
    Upserts.DeclareTwice(targets, ts, (t: PutTargetsRequest) => t.rule);
  }
}

=== FILE: upserts.dfy ===
/**
 * The backend's side of a declaration call: alarms and rules are stored by name, and
 * declaring a name again replaces what was stored under it. The model uses this store
 * only to state what re-running the synchronisation does.
 */
module Upserts {

  /** The names declared by a sequence of declarations. */
  function Names<T>(decls: seq<T>, key: T -> string): set<string> {
    set i | 0 <= i < |decls| :: key(decls[i])
  }

  lemma NamesOfTwo<T>(a: T, b: T, key: T -> string)
    ensures Names([a, b], key) == {key(a), key(b)}
  {
    assert key([a, b][0]) in Names([a, b], key);
    assert key([a, b][1]) in Names([a, b], key);
  }

  /** The names of a non-empty sequence: the first one and those of the rest. */
  lemma NamesCons<T>(decls: seq<T>, key: T -> string)
    requires |decls| > 0
    ensures Names(decls, key) == {key(decls[0])} + Names(decls[1..], key)
  {
    forall n | n in Names(decls, key) ensures n in {key(decls[0])} + Names(decls[1..], key) {
      var i :| 0 <= i < |decls| && key(decls[i]) == n;
      if i > 0 { assert decls[1..][i - 1] == decls[i]; }
    }
    forall n | n in Names(decls[1..], key) ensures n in Names(decls, key) {
      var i :| 0 <= i < |decls[1..]| && key(decls[1..][i]) == n;
      assert decls[1..][i] == decls[i + 1];
    }
  }

  /** Declarations with pairwise distinct names declare as many names as there are
      declarations. */
  lemma {:induction false} NamesCount<T>(decls: seq<T>, key: T -> string)
    requires forall i, j :: 0 <= i < j < |decls| ==> key(decls[i]) != key(decls[j])
    ensures |Names(decls, key)| == |decls|
    decreases |decls|
  {
    if |decls| > 0 {
      NamesCons(decls, key);
      NamesCount(decls[1..], key);
      forall i | 0 <= i < |decls[1..]| ensures key(decls[1..][i]) != key(decls[0]) {
        assert decls[1..][i] == decls[i + 1];
      }
    }
  }

  /** Send the declarations one after the other to a store keyed by `key`. */
  function Declare<T>(store: map<string, T>, decls: seq<T>, key: T -> string): (r: map<string, T>)
    // exactly the declared names are added
    ensures r.Keys == store.Keys + Names(decls, key)
    // names not declared keep their stored value
    ensures forall n :: n in store && n !in Names(decls, key) ==> r[n] == store[n]
    // a declared name holds the last declaration made under it
    ensures forall i :: 0 <= i < |decls| && (forall m :: i < m < |decls| ==> key(decls[m]) != key(decls[i]))
                        ==> r[key(decls[i])] == decls[i]
    decreases |decls|
  {
    if |decls| == 0 then store
    else
      var rest := Declare(store[key(decls[0]) := decls[0]], decls[1..], key);
      NamesCons(decls, key);
      assert forall i :: 0 < i < |decls| ==> decls[1..][i - 1] == decls[i];
      rest
  }

  /** Declaring into a store is overriding the store with what the declarations alone
      would build. */
  lemma {:induction false} DeclareIsOverride<T>(store: map<string, T>, decls: seq<T>, key: T -> string)
    ensures Declare(store, decls, key) == store + Declare(map[], decls, key)
    decreases |decls|
  {
    if |decls| == 0 {
      assert store + map[] == store;
    } else {
      var d := decls[0];
      DeclareIsOverride(store[key(d) := d], decls[1..], key);
      DeclareIsOverride(map[key(d) := d], decls[1..], key);
      assert map[][key(d) := d] == map[key(d) := d];
      OverrideUpdate(store, key(d), d, Declare(map[], decls[1..], key));
    }
  }

  lemma OverrideUpdate<T>(store: map<string, T>, k: string, d: T, rest: map<string, T>)
    ensures store[k := d] + rest == store + (map[k := d] + rest)
  {
  }

  /** Re-sending the same declarations leaves the store as one sending left it. */
  lemma DeclareTwice<T>(store: map<string, T>, decls: seq<T>, key: T -> string)
    ensures Declare(Declare(store, decls, key), decls, key) == Declare(store, decls, key)
  {
    var built := Declare(map[], decls, key);
    DeclareIsOverride(store, decls, key);
    DeclareIsOverride(store + built, decls, key);
    assert (store + built) + built == store + built;
  }
}

=== FILE: wrappers.dfy ===
/** Failure-compatible wrappers shared by the other modules. */
module Wrappers {

  /** A value that may be absent. */
  datatype Option<+T> = None | Some(value: T)

  /** The outcome of a computation that may raise an error of type E. */
  datatype Result<+R, +E> = Success(value: R) | Failure(error: E) {
    predicate IsFailure() {
      Failure?
    }

    function PropagateFailure<U>(): Result<U, E>
      requires Failure?
    {
      Failure(error)
    }

    function Extract(): R
      requires Success?
    {
      value
    }
  }

  /** The elements of an optional value, as a sequence of length zero or one. */
  function OptionToSeq<T>(o: Option<T>): (s: seq<T>)
    ensures |s| <= 1
    ensures o.None? <==> s == []
    ensures o.Some? ==> s == [o.value]
  {
    match o
    case None => []
    case Some(v) => [v]
  }
}
